=== FILE: README.md ===
# ByteStreamer in Dafny

A model of the streaming core of the FileStreamBot web streamer: the
`ByteStreamer` class of `WebStreamer/utils/custom_dl.py`, which turns a stored
file id into the sequence of byte chunks served for an HTTP range request.
It is modelled in these parts:

- **Descriptor cache.** A stored id is resolved to a file descriptor once. The
  upstream connection with the smallest in-flight counter does the resolving,
  and the result is cached. The cache can be cleared.
- **Media-session table.** Each connection keeps one table keyed by data
  center. A started session is reused. One that is no longer started is
  evicted and replaced. For a foreign data center, the authorization import
  is attempted up to six times.
- **Location dispatch.** This picks the remote location to fetch from, by
  file type and, for chat photos, by the sign of the chat id and the chat
  access hash.
- **The chunk loops of `yield_file`.** The direct `upload.GetFile` loop and
  the CDN loop slice the first and last part, and stop on an empty chunk or
  after `part_count` parts. The CDN loop also:
  - retries the same offset after a reupload;
  - derives the per-chunk AES-CTR IV;
  - checks each hash segment.
- **Workload accounting** around the loops, and the exception handling that
  closes them.

Modules, in dependency order:

| module | file | contents |
|---|---|---|
| `Basics` | basics.dfy | bytes, exceptions, `Result`, Python slicing, `int.to_bytes(4, "big")` |
| `Locations` | locations.dfy | descriptors, peers, locations, `get_location` |
| `Workloads` | workloads.dfy | the `work_loads` table as a class; `min(work_loads, key=work_loads.get)` |
| `Sessions` | sessions.dfy | `Session` and `Client` classes, the six-attempt import policy |
| `Chunks` | chunks.dfy | the slice rule, the recursive stream specifications and the two loops proved against them |
| `ChunkProperties` | chunk_properties.dfy | what the loops promise: part counts, slices, early ends, range correctness, CDN retries and mismatches |
| `Streamer` | streamer.dfy | the `ByteStreamer` class |

The remote calls are oracle parameters:
- `upload.GetFile`, `GetCdnFile` and `GetCdnFileHashes` are the function-valued fields of a `Remote` value;
- the export/import outcome of each authorization attempt is a function of the attempt number;
- `get_file_ids` is a resolver function of the connection index and the id.

AES-256-CTR decryption and SHA-256 are uninterpreted functions in `Remote`.
Each loop is a `while` method whose postcondition equates what it yields, and
how it ends, with a recursive ghost specification (`DirectFrom`, `CdnFrom`).
The lemmas in `ChunkProperties` are about those specifications.

## Model

| member | source | states |
|---|---|---|
| `Basics.PySlice` | WebStreamer/utils/custom_dl.py:208-215 | Python slicing `s[lo:hi]` with negative indices counted from the end and out-of-range bounds clamped: the length, every element, and agreement with `s[lo..hi]` when the bounds are in range |
| `Basics.ToBytes4` | WebStreamer/utils/custom_dl.py:268 | `n.to_bytes(4, "big")` succeeds exactly when `0 <= n < 2^32` (otherwise OverflowError); the four bytes read back big-endian as `n` |
| `Locations.GetLocation` | WebStreamer/utils/custom_dl.py:136-171 | chat photo, photo, and every other type map to a peer-photo, photo, and document location respectively. For a chat photo: the peer is a user iff `chat_id > 0`; it is a basic chat iff `chat_id <= 0` and the access hash is 0, with id `-chat_id`; otherwise it is a channel. `big` holds iff the thumbnail source is CHAT_PHOTO_BIG. Every location carries the media id; photo and document locations carry the access hash, file reference and thumbnail size |
| `Workloads.FirstMinimumAt` | WebStreamer/utils/custom_dl.py:59 | the position Python's `min` stops at: its load is at most every load, and strictly below every load before it |
| `Workloads.LeastLoaded` | WebStreamer/utils/custom_dl.py:59 | `min(work_loads, key=work_loads.get)`: ValueError iff the table is empty; otherwise a key whose load is at most every other load, and the first such key in table order |
| `Workloads.TieBreakPicksFirst` | WebStreamer/utils/custom_dl.py:59 | on loads `{0: 3, 1: 1, 2: 1}` the choice is 1, the first of the tied minima |
| `Workloads.WorkloadTable.constructor` | WebStreamer/utils/custom_dl.py:7 | the `work_loads` table the streamer imports: one zero counter per distinct connection index, in the given order. The table is filled in `WebStreamer/bot`, which is not part of this model |
| `Workloads.WorkloadTable.Increment` | WebStreamer/utils/custom_dl.py:189 | `work_loads[i] += 1`: that counter alone goes up by one; the order is kept |
| `Workloads.WorkloadTable.Decrement` | WebStreamer/utils/custom_dl.py:317 | `work_loads[i] -= 1`: that counter alone goes down by one; the order is kept |
| `Workloads.WorkloadTable.Pick` | WebStreamer/utils/custom_dl.py:59 | the least-loaded choice, read without changing the table |
| `Sessions.Session.Start` | WebStreamer/utils/custom_dl.py:91 | a started session is marked started |
| `Sessions.Session.Stop` | WebStreamer/utils/custom_dl.py:77 | a stopped session is no longer started |
| `Sessions.RetryImport` | WebStreamer/utils/custom_dl.py:93-112 | the retry policy from attempt `k` on. An early stop happens at an attempt after `k` and within the six, and every attempt before it was refused. The stopping attempt was accepted (success) or raised the error reported (failure) |
| `Sessions.ImportedAtFirstAccepted` | WebStreamer/utils/custom_dl.py:93-109 | the import succeeds after exactly `n` attempts iff `n <= 6`, attempt `n` is accepted, and every earlier attempt was refused with AuthBytesInvalid |
| `Sessions.ExhaustedIffAllRefused` | WebStreamer/utils/custom_dl.py:93-112 | the import gives up iff all six attempts are refused with AuthBytesInvalid |
| `Sessions.FailedAtFirstRaised` | WebStreamer/utils/custom_dl.py:93-112 | the import fails with error `e` after exactly `n` attempts iff `n <= 6`, attempt `n` raised `e`, and every earlier attempt was refused with AuthBytesInvalid |
| `Sessions.ImportWithRetry` | WebStreamer/utils/custom_dl.py:93-112 | the `for _ in range(6)` loop yields the outcome of the retry policy, and makes between 1 and 6 attempts when it stops early |
| `Sessions.SessionFailureCases` | WebStreamer/utils/custom_dl.py:80-112 | for a foreign data center, six refusals make session creation raise AuthBytesInvalid. A session is handed out iff some attempt within six is accepted after refusals only |
| `Sessions.SessionFailure` | WebStreamer/utils/custom_dl.py:73-112 | what session creation raises. Reusing a started session, or opening one on the home data center, never fails. Anything raised is either AuthBytesInvalid after all six attempts were refused, or the error of the first attempt that was not refused |
| `Chunks.PartSlice` | WebStreamer/utils/custom_dl.py:208-215 | the per-part cut, shared by both loops. It is never longer than the chunk. A single part is cut at both ends (`chunk[first:last]`). Otherwise the first part drops its head (`chunk[first:]`), the last part keeps its head (`chunk[:last]`), and the parts in between are whole |
| `Chunks.ChunkIv` | WebStreamer/utils/custom_dl.py:263-270 | the IV is `encryption_iv[:-4]` followed by four bytes that read back big-endian as `offset // 16`. It exists exactly when that counter fits in 32 bits |
| `Chunks.Handled` | WebStreamer/utils/custom_dl.py:307-314 | TimeoutError and AttributeError end the stream normally; every other exception propagates unchanged |
| `Chunks.VerifyHashes` | WebStreamer/utils/custom_dl.py:280-285 | the check passes iff hash `i` is the SHA-256 of `decrypted[limit*i : limit*(i+1)]` for every `i` |
| `Chunks.DirectLoop` | WebStreamer/utils/custom_dl.py:203-227 | the direct loop yields exactly the chunks of `DirectFrom` and ends the same way. A chunk at the next offset is fetched only while parts remain; an empty chunk stops; a non-file response raises AttributeError |
| `Chunks.CdnLoop` | WebStreamer/utils/custom_dl.py:238-302 | the CDN loop yields exactly the chunks of `CdnFrom` and ends the same way. This covers: the reupload retry; VolumeLocNotFound ending the loop; IV overflow; a hash-fetch failure; a hash mismatch; an empty chunk; the part limit |
| `Chunks.StreamSpec` | WebStreamer/utils/custom_dl.py:198-302 | the body of the outer `try`. Only a `File` or a `FileCdnRedirect` answer to the first request yields anything. A failed first request raises its error. Any other answer ends the stream quietly |
| `ChunkProperties.DirectPartsBound` | WebStreamer/utils/custom_dl.py:217-221 | from part `part` on, the direct loop yields at most one chunk per remaining part |
| `ChunkProperties.DirectPartsAreSlices` | WebStreamer/utils/custom_dl.py:205-225 | the `k`-th yielded chunk is the slice, for part `part + k`, of a non-empty file chunk fetched at `offset + k * chunk_size` |
| `ChunkProperties.DirectEmptyChunkEnds` | WebStreamer/utils/custom_dl.py:205-207 | an empty chunk at `offset + k * chunk_size` means at most `k` chunks are yielded: nothing from it or after it |
| `ChunkProperties.DirectServesExpected` | WebStreamer/utils/custom_dl.py:204-227 | from any part on, when the remote serves the file, the direct loop yields the expected slice of every remaining part, one per chunk size, and ends normally |
| `ChunkProperties.ExpectedLength` | WebStreamer/utils/custom_dl.py:217-221 | the expected stream has one chunk per remaining part, the last part included |
| `ChunkProperties.ExpectedIsRange` | WebStreamer/utils/custom_dl.py:208-215 | the expected slices from any part on concatenate to the contiguous bytes from that part's start (after the first-part cut on part 1) up to the last-part cut |
| `ChunkProperties.StreamDeliversRange` | WebStreamer/utils/custom_dl.py:197-227 | range correctness: when the remote serves the file, the stream yields exactly `part_count` chunks. They concatenate to `content[offset + first_part_cut .. offset + (part_count-1)*chunk_size + last_part_cut]`, that is `chunk0[first:] + chunk1 + ... + chunkN[:last]` (or `chunk0[first:last]`), and the stream ends normally |
| `ChunkProperties.ThreePartExample` | WebStreamer/utils/custom_dl.py:208-215 | with 1 MiB chunks, cuts 100 and 500000 and three parts, the yields are `c0[100:]`, `c1` and `c2[:500000]` |
| `ChunkProperties.CdnRetriesSameOffset` | WebStreamer/utils/custom_dl.py:247-258 | CdnFileReuploadNeeded retries the same offset without yielding or advancing: after successful reuploads the loop is where it would have been with none |
| `ChunkProperties.CdnYieldNeedsReuploads` | WebStreamer/utils/custom_dl.py:247-258 | anything yielded at an offset requires every reupload requested there to have succeeded |
| `ChunkProperties.CdnYieldStep` | WebStreamer/utils/custom_dl.py:247-296 | anything yielded at an offset comes from a non-empty chunk that was decrypted with that offset's IV and whose hash segments all matched |
| `ChunkProperties.VerifiedChecks` | WebStreamer/utils/custom_dl.py:260-285 | a chunk that decrypts with a valid IV and matches every hash segment passes the per-chunk checks with its plaintext |
| `ChunkProperties.ChecksVerified` | WebStreamer/utils/custom_dl.py:260-285 | conversely, a chunk that passes the per-chunk checks after its reuploads was decrypted with a valid IV and matched every hash segment, and the plaintext is the decrypted bytes |
| `ChunkProperties.CdnVolumeMissingEnds` | WebStreamer/utils/custom_dl.py:255-256 | VolumeLocNotFound on a reupload ends the CDN loop normally, yielding nothing more |
| `ChunkProperties.CdnPartsBound` | WebStreamer/utils/custom_dl.py:298-302 | the CDN loop yields at most one chunk per remaining part |
| `ChunkProperties.CdnPartsAreVerifiedSlices` | WebStreamer/utils/custom_dl.py:260-296 | the `k`-th CDN yield is the slice, for its part, of the non-empty plaintext at `offset + k * chunk_size`. That plaintext was decrypted with that offset's IV, and every hash segment of it matched |
| `ChunkProperties.CdnVerifiedStep` | WebStreamer/utils/custom_dl.py:287-302 | a verified, non-empty chunk is sliced and yielded, and the loop moves on one chunk size (or stops after the last part) |
| `ChunkProperties.CdnMismatchStep` | WebStreamer/utils/custom_dl.py:280-285 | a chunk that fails the hash check raises CDNFileHashMismatch and yields nothing |
| `ChunkProperties.CdnHashMismatchAborts` | WebStreamer/utils/custom_dl.py:272-302 | if the first `k` chunks all pass their checks and are non-empty, within the part limit, and chunk `k` fails the hash check, the stream ends with CDNFileHashMismatch after exactly `k` yields |
| `ChunkProperties.CdnServesAll` | WebStreamer/utils/custom_dl.py:238-302 | when every chunk for the remaining parts passes its checks and is non-empty, the CDN loop yields exactly one chunk per remaining part, the current one included, and ends normally |
| `ChunkProperties.StreamPartsBound` | WebStreamer/utils/custom_dl.py:197-302 | whatever the first response, at most `part_count` chunks are yielded (one when `part_count` is below one) |
| `Streamer.ByteStreamer.constructor` | WebStreamer/utils/custom_dl.py:37-38 | the cache starts empty; the clean timer is thirty minutes |
| `Streamer.ByteStreamer.GetFileProperties` | WebStreamer/utils/custom_dl.py:47-51 | a hit returns the stored descriptor and leaves the cache unchanged. A miss resolves on the least-loaded connection and caches the result. A returned descriptor is always the one the cache holds |
| `Streamer.ByteStreamer.GenerateFileProperties` | WebStreamer/utils/custom_dl.py:59-65 | the least-loaded connection resolves the id, and the cache gains exactly that entry. An empty table raises ValueError, and a failed resolution raises; both leave the cache unchanged |
| `Streamer.ByteStreamer.GenerateMediaSession` | WebStreamer/utils/custom_dl.py:73-126 | A started cached session is returned and the table is unchanged. Otherwise a stale entry is evicted and ends stopped, and a new media session is started for the media's data center and registered under it. No other key changes, and only the entry under the media's data center may be touched, so every other session keeps its started flag. The call fails exactly as the import policy says. After six refusals the new session is stopped, not registered, and AuthBytesInvalid is raised. An import that raises leaves the new session started and unregistered |
| `Streamer.ByteStreamer.ServeChunks` | WebStreamer/utils/custom_dl.py:197-314 | the body of the outer `try` yields, at the media's location, what the stream specification says for the first response. A CDN session to the redirect's data center is opened exactly for a redirect, and it is stopped on every exit, as the inner `finally` does. On OSError the media session is dropped from the table and stopped; on anything else the table and the media session are untouched |
| `Streamer.ByteStreamer.SessionAndServe` | WebStreamer/utils/custom_dl.py:191-314 | session creation followed by the outer `try`, on one connection. A session error is raised with nothing yielded. Otherwise the stream is the specification's, ended as the `except` clauses say. It runs on the session that was reused or on a fresh one, and that session is left in the table and started unless an OSError dropped it. Only the media's data-center entry may change |
| `Streamer.ByteStreamer.StreamOn` | WebStreamer/utils/custom_dl.py:189-317 | the same, between the counter's increment and its decrement: the counter is back at its prior value on every exit, a session error included (corrected; see ## Findings) |
| `Streamer.ByteStreamer.YieldFile` | WebStreamer/utils/custom_dl.py:188-317 | An unknown connection index raises KeyError. The connection's counter is back at its prior value on every exit. A session error propagates with nothing yielded. Otherwise the stream is the loop's, ended as the `except` clauses say. After an OSError the data center has no entry in the table; otherwise it holds a started session, the reused one or a fresh one. No other entry of that connection and no other connection's table changes, and every session under another data center keeps its started flag (corrected; see ## Findings) |
| `Streamer.ByteStreamer.StreamOnAsWritten` | WebStreamer/utils/custom_dl.py:189-197 | as written, a session error raised between the increment and the `try` leaves the counter one higher than before; every other exit restores it |
| `Streamer.ByteStreamer.YieldFileAsWritten` | WebStreamer/utils/custom_dl.py:188-197 | as written, a session error leaves the counter one higher than before |
| `Streamer.ByteStreamer.CleanCache` | WebStreamer/utils/custom_dl.py:326 | the cache is empty afterwards |
| `Streamer.LeakWitness` | WebStreamer/utils/custom_dl.py:189-191 | one idle connection, a document on a foreign data center, and every import refused: the counter goes from 0 to 1 and stays there |

## Left out

- The `asyncio.create_task` timer and the `asyncio.sleep` in `clean_cache`. Only the clear itself is modelled.
- Concurrency between streams: interleavings, single-flight resolution, and generator cancellation. `finally` is modelled as running on every exit path of a sequential run.
- Logging, and the `cdn_count` statistics counter (line 229): it feeds no decision of the streamer.
- AES-256-CTR decryption and SHA-256: these are uninterpreted functions. Only the IV construction and the pairing of hashes with segments are modelled.
- `Session(...)`, `Auth(...).create()`, `client.storage.*`, `client.invoke` and `utils.get_channel_id` are hydrogram internals:
  - session start and Auth creation are assumed to succeed;
  - the export/import round trips are an oracle of the attempt number;
  - `get_channel_id` is a function parameter.
- `get_file_ids` (`WebStreamer/utils/file_properties.py`) is not part of this model. It is a resolver oracle of the connection index and the id. The model takes the connection index from the workload table, as the source does, and passes that index to the resolver.
- Chunks.CdnLoop: the number of CdnFileReuploadNeeded answers at one offset is finite in the model (`CdnAnswer.reuploads`). The source would loop forever against a CDN that asks for reuploads without end.
- Which session answers which call (the media session or the CDN session) is not distinguished: all remote answers come from one `Remote`.
- Streamer.ByteStreamer.ServeChunks: only the OSError family and its handler are modelled. TimeoutError is a subclass of OSError in Python, but it is caught first, so it is handled as a quiet end.
- `WebStreamer/bot/plugins/stream.py` is bot handler glue and is not part of this model.

## Findings

| source | as written | input that shows it | evidently intended | confidence | as-written member | corrected member |
|---|---|---|---|---|---|---|
| WebStreamer/utils/custom_dl.py:189-197 | `work_loads[index] += 1` runs before `generate_media_session`, and both are outside the `try` whose `finally` decrements. If session creation raises, the counter is never decremented. | one connection with counter 0 and home data center 1, a document on data center 2, and all six authorization imports refused with AuthBytesInvalid: the stream raises and the counter stays at 1 | the counter returns to its prior value on every exit, including a failed session creation, so a connection is not permanently shunned by the least-loaded choice | not executed | `Streamer.LeakWitness` | `Streamer.ByteStreamer.YieldFile` |

=== FILE: basics.dfy ===
/** Python runtime notions the byte streamer relies on: bytes, the exceptions
    it raises or catches, slicing with clamped bounds, and
    `int.to_bytes(4, "big")`. */
module Basics {

  newtype byte = b: int | 0 <= b < 256

  datatype Option<+T> = None | Some(value: T)

  /** The exceptions the streaming core raises, catches or lets through. */
  datatype Exc =
    | TimeoutErr          // TimeoutError
    | AttributeErr        // AttributeError: `.bytes` read on a response that has none
    | OSErr               // OSError from the transport
    | AuthBytesInvalid    // the cross-data-center authorization import was refused
    | CdnHashMismatch     // CDNFileHashMismatch
    | OverflowErr         // OverflowError from int.to_bytes
    | KeyErr              // KeyError: a dict lookup of a missing key
    | ValueErr            // ValueError: min() of an empty dict
    | RpcError(code: int) // any other error the remote reports

  datatype Result<+T> = Ok(value: T) | Err(error: Exc)

  /** How Python normalises one bound of `s[lo:hi]` against `len(s) == n`:
      a negative bound counts from the end, and both are clamped to `[0, n]`. */
  function ClampIndex(n: nat, i: int): (r: nat)
    ensures r <= n
  {
    if i < 0 then (if n + i < 0 then 0 else n + i)
    else if i > n then n
    else i
  }

  /** Python's `s[lo:hi]`: never fails, whatever the bounds. */
  function PySlice<T>(s: seq<T>, lo: int, hi: int): (r: seq<T>)
    ensures |r| == (if ClampIndex(|s|, lo) < ClampIndex(|s|, hi)
                    then ClampIndex(|s|, hi) - ClampIndex(|s|, lo) else 0)
    ensures forall k :: 0 <= k < |r| ==> r[k] == s[ClampIndex(|s|, lo) + k]
    ensures 0 <= lo <= hi <= |s| ==> r == s[lo..hi]
  {
    var a, b := ClampIndex(|s|, lo), ClampIndex(|s|, hi);
    if a < b then s[a..b] else []
  }

  /** The bytes of a list of chunks, in order (what an HTTP client receives). */
  function Flatten(parts: seq<seq<byte>>): seq<byte>
  {
    if parts == [] then [] else parts[0] + Flatten(parts[1..])
  }

  const TwoTo32: int := 0x1_0000_0000

  /** Unsigned big-endian reading of a byte string. */
  function FromBigEndian(b: seq<byte>): nat
  {
    if b == [] then 0 else FromBigEndian(b[..|b| - 1]) * 256 + b[|b| - 1] as int
  }

  /** `n.to_bytes(4, "big")`; Python raises OverflowError outside `[0, 2^32)`. */
  function ToBytes4(n: int): (r: Option<seq<byte>>)
    ensures r.Some? <==> 0 <= n < TwoTo32
    ensures r.Some? ==> |r.value| == 4 && FromBigEndian(r.value) == n
  {
    if 0 <= n < TwoTo32 then
      var q1 := n / 256;
      var q2 := q1 / 256;
      var q3 := q2 / 256;
      var r := [q3 as byte, (q2 % 256) as byte, (q1 % 256) as byte, (n % 256) as byte];
      assert r[..3][..2][..1] == [q3 as byte] && [q3 as byte][..0] == [];
      assert FromBigEndian([q3 as byte]) == q3;
      assert FromBigEndian(r[..3][..2]) == q3 * 256 + q2 % 256 == q2;
      assert FromBigEndian(r[..3]) == q2 * 256 + q1 % 256 == q1;
      assert FromBigEndian(r) == q1 * 256 + n % 256 == n;
      Some(r)
    else
      None
  }
}

=== FILE: chunk_properties.dfy ===
/** What the streaming loops promise: how many chunks they yield, which bytes
    each one is, how an empty chunk, a reupload request or a hash mismatch
    ends or resumes the loop, and that a well-served request delivers exactly
    the requested byte range. */
module ChunkProperties {
  import opened Basics
  import opened Locations
  import opened Chunks

  /** Where the chunk of the `k`-th part after the one at `offset` is fetched:
      one chunk size further per part. */
  function PartOffset(offset: int, chunkSize: int, k: nat): int
    decreases k
  {
    if k == 0 then offset else PartOffset(offset + chunkSize, chunkSize, k - 1)
  }

  /** Part `k` after the one at `offset` is fetched at `offset + k * chunk_size`. */
  lemma {:induction false} PartOffsetIsProduct(offset: int, chunkSize: int, k: nat)
    ensures PartOffset(offset, chunkSize, k) == offset + k * chunkSize
    decreases k
  {
    if k > 0 {
      PartOffsetIsProduct(offset + chunkSize, chunkSize, k - 1);
    }
  }

  // ---------------------------------------------------------------------------
  // The direct loop

  /** One step of the direct loop over a non-empty chunk. */
  lemma DirectStep(remote: Remote, loc: Location, chunk: seq<byte>, offset: int, part: int, p: StreamParams)
    requires chunk != []
    ensures DirectFrom(remote, loc, File(chunk), offset, part, p)
            == if part + 1 > p.partCount then Stream([PartSlice(p, part, chunk)], Done)
               else Then([PartSlice(p, part, chunk)],
                         DirectFrom(remote, loc, remote.getFile(loc, offset + p.chunkSize),
                                    offset + p.chunkSize, part + 1, p))
  {
  }

  /** At most one chunk per remaining part is yielded. */
  lemma {:induction false} DirectPartsBound(remote: Remote, loc: Location, r: FileResponse, offset: int,
                                            part: int, p: StreamParams)
    ensures |DirectFrom(remote, loc, r, offset, part, p).parts| <= Remaining(p, part) + 1
    decreases Remaining(p, part)
  {
    if r.File? && r.bytes != [] && part + 1 <= p.partCount {
      var next := offset + p.chunkSize;
      DirectPartsBound(remote, loc, remote.getFile(loc, next), next, part + 1, p);
    }
  }

  /** The `k`-th yielded chunk is the slice, for its part, of the non-empty
      chunk fetched `k` chunk sizes after `offset`. */
  lemma {:induction false} DirectPartsAreSlices(remote: Remote, loc: Location, offset: int, part: int,
                                                p: StreamParams, k: nat)
    requires k < |DirectFrom(remote, loc, remote.getFile(loc, offset), offset, part, p).parts|
    ensures remote.getFile(loc, PartOffset(offset, p.chunkSize, k)).File?
    ensures remote.getFile(loc, PartOffset(offset, p.chunkSize, k)).bytes != []
    ensures DirectFrom(remote, loc, remote.getFile(loc, offset), offset, part, p).parts[k]
            == PartSlice(p, part + k, remote.getFile(loc, PartOffset(offset, p.chunkSize, k)).bytes)
    decreases k
  {
    var next := offset + p.chunkSize;
    if k > 0 {
      DirectPartsAreSlices(remote, loc, next, part + 1, p, k - 1);
    }
  }

  /** An empty chunk ends the stream: nothing from it or after it is yielded. */
  lemma DirectEmptyChunkEnds(remote: Remote, loc: Location, offset: int, part: int, p: StreamParams, k: nat)
    requires remote.getFile(loc, PartOffset(offset, p.chunkSize, k)) == File([])
    ensures |DirectFrom(remote, loc, remote.getFile(loc, offset), offset, part, p).parts| <= k
  {
    if k < |DirectFrom(remote, loc, remote.getFile(loc, offset), offset, part, p).parts| {
      DirectPartsAreSlices(remote, loc, offset, part, p, k);
    }
  }

  /** The bytes a file holds from `offset` on, at most `size` of them. */
  function Window(content: seq<byte>, offset: nat, size: nat): seq<byte>
  {
    if offset >= |content| then []
    else if offset + size >= |content| then content[offset..]
    else content[offset..offset + size]
  }

  /** The remote answers every request at a non-negative offset with the
      file's bytes from there, `size` at most (none past the end). */
  ghost predicate Serves(remote: Remote, loc: Location, content: seq<byte>, size: nat)
  {
    forall o: nat :: remote.getFile(loc, o) == File(Window(content, o, size))
  }

  lemma FlattenCons(y: seq<byte>, rest: seq<seq<byte>>)
    ensures Flatten([y] + rest) == y + Flatten(rest)
  {
    assert ([y] + rest)[0] == y && ([y] + rest)[1..] == rest;
  }

  /** The slice yielded for the last part of a well-served request. */
  lemma LastPartSlice(content: seq<byte>, offset: nat, part: int, p: StreamParams, from: int, until: int)
    requires p.chunkSize > 0 && part == p.partCount >= 1
    requires 0 <= p.firstPartCut < p.chunkSize && 0 < p.lastPartCut <= p.chunkSize
    requires p.partCount == 1 ==> p.firstPartCut <= p.lastPartCut
    requires until == offset + p.lastPartCut <= |content|
    requires from == if part == 1 then offset + p.firstPartCut else offset
    ensures Window(content, offset, p.chunkSize) != []
    ensures PartSlice(p, part, Window(content, offset, p.chunkSize)) == content[from..until]
  {
    var chunk := Window(content, offset, p.chunkSize);
    assert |chunk| >= p.lastPartCut;
    assert chunk[..p.lastPartCut] == content[offset..until];
    if p.partCount == 1 {
      assert chunk[p.firstPartCut..p.lastPartCut] == content[from..until];
    }
  }

  /** The slice yielded for a part before the last of a well-served request. */
  lemma InnerPartSlice(content: seq<byte>, offset: nat, part: int, p: StreamParams, from: int)
    requires p.chunkSize > 0 && 1 <= part < p.partCount
    requires 0 <= p.firstPartCut < p.chunkSize
    requires offset + p.chunkSize <= |content|
    requires from == if part == 1 then offset + p.firstPartCut else offset
    ensures Window(content, offset, p.chunkSize) != []
    ensures PartSlice(p, part, Window(content, offset, p.chunkSize)) == content[from..offset + p.chunkSize]
  {
    var chunk := Window(content, offset, p.chunkSize);
    assert chunk == content[offset..offset + p.chunkSize];
    if part == 1 {
      assert chunk[p.firstPartCut..] == content[from..offset + p.chunkSize];
    }
  }

  /** The bytes covered by `n` whole chunks of `size`, counted one chunk at a time. */
  function Span(n: nat, size: nat): (r: nat)
  {
    if n == 0 then 0 else size + Span(n - 1, size)
  }

  lemma {:induction false} SpanIsProduct(n: nat, size: nat)
    ensures Span(n, size) == n * size
  {
    if n > 0 {
      SpanIsProduct(n - 1, size);
    }
  }

  lemma JoinSlices(content: seq<byte>, y: seq<byte>, rest: seq<seq<byte>>, from: int, mid: int, until: int)
    requires 0 <= from <= mid <= until <= |content|
    requires y == content[from..mid] && Flatten(rest) == content[mid..until]
    ensures Flatten([y] + rest) == content[from..until]
  {
    FlattenCons(y, rest);
    assert content[from..mid] + content[mid..until] == content[from..until];
  }

  /** The slices a well-served stream is expected to yield from part `part`
      on, each cut from the window of the file at its offset. */
  function Expected(content: seq<byte>, offset: nat, part: int, p: StreamParams): seq<seq<byte>>
    requires p.chunkSize >= 0
    decreases Remaining(p, part)
  {
    [PartSlice(p, part, Window(content, offset, p.chunkSize))]
      + if part + 1 > p.partCount then [] else Expected(content, offset + p.chunkSize, part + 1, p)
  }

  /** From part `part` on, a remote that serves the file and never runs dry
      before the last part makes the direct loop yield the expected slices
      and end normally. */
  lemma {:induction false} DirectServesExpected(remote: Remote, loc: Location, content: seq<byte>, offset: nat,
                                                part: int, p: StreamParams)
    requires p.chunkSize > 0 && Serves(remote, loc, content, p.chunkSize)
    requires part <= p.partCount
    requires offset + Span(p.partCount - part, p.chunkSize) < |content|
    ensures DirectFrom(remote, loc, remote.getFile(loc, offset), offset, part, p)
            == Stream(Expected(content, offset, part, p), Done)
    decreases p.partCount - part
  {
    var chunk := Window(content, offset, p.chunkSize);
    assert remote.getFile(loc, offset) == File(chunk);
    DirectStep(remote, loc, chunk, offset, part, p);
    if part + 1 <= p.partCount {
      var next := offset + p.chunkSize;
      assert Span(p.partCount - part, p.chunkSize) == p.chunkSize + Span(p.partCount - (part + 1), p.chunkSize);
      DirectServesExpected(remote, loc, content, next, part + 1, p);
    }
  }

  /** One expected slice per remaining part. */
  lemma {:induction false} ExpectedLength(content: seq<byte>, offset: nat, part: int, p: StreamParams)
    requires p.chunkSize >= 0 && part <= p.partCount
    ensures |Expected(content, offset, part, p)| == p.partCount - part + 1
    decreases p.partCount - part
  {
    if part < p.partCount {
      ExpectedLength(content, offset + p.chunkSize, part + 1, p);
    }
  }

  /** The expected slices concatenate to `content[from..until]`. */
  lemma {:induction false} ExpectedIsRange(content: seq<byte>, offset: nat, part: int, p: StreamParams,
                                           from: int, until: int)
    requires p.chunkSize > 0 && 1 <= part <= p.partCount
    requires 0 <= p.firstPartCut < p.chunkSize && 0 < p.lastPartCut <= p.chunkSize
    requires p.partCount == 1 ==> p.firstPartCut <= p.lastPartCut
    requires until == offset + Span(p.partCount - part, p.chunkSize) + p.lastPartCut <= |content|
    requires from == if part == 1 then offset + p.firstPartCut else offset
    ensures from <= until
    ensures Flatten(Expected(content, offset, part, p)) == content[from..until]
    decreases p.partCount - part
  {
    if part == p.partCount {
      ExpectedLast(content, offset, part, p, from, until);
    } else {
      var next := offset + p.chunkSize;
      assert until == next + Span(p.partCount - (part + 1), p.chunkSize) + p.lastPartCut;
      ExpectedIsRange(content, next, part + 1, p, next, until);
      ExpectedInner(content, offset, part, p, from, until, Expected(content, next, part + 1, p));
    }
  }

  /** The last part alone: one slice, ending at `until`. */
  lemma ExpectedLast(content: seq<byte>, offset: nat, part: int, p: StreamParams, from: int, until: int)
    requires p.chunkSize > 0 && part == p.partCount >= 1
    requires 0 <= p.firstPartCut < p.chunkSize && 0 < p.lastPartCut <= p.chunkSize
    requires p.partCount == 1 ==> p.firstPartCut <= p.lastPartCut
    requires until == offset + p.lastPartCut <= |content|
    requires from == if part == 1 then offset + p.firstPartCut else offset
    ensures from <= until
    ensures Flatten(Expected(content, offset, part, p)) == content[from..until]
  {
    var y := PartSlice(p, part, Window(content, offset, p.chunkSize));
    LastPartSlice(content, offset, part, p, from, until);
    assert Expected(content, offset, part, p) == [y];
    FlattenCons(y, []);
  }

  /** A part before the last: its slice runs up to the next offset, where the
      rest of the range begins. */
  lemma ExpectedInner(content: seq<byte>, offset: nat, part: int, p: StreamParams, from: int, until: int,
                      rest: seq<seq<byte>>)
    requires p.chunkSize > 0 && 1 <= part < p.partCount
    requires 0 <= p.firstPartCut < p.chunkSize
    requires offset + p.chunkSize <= until <= |content|
    requires from == if part == 1 then offset + p.firstPartCut else offset
    requires Flatten(rest) == content[offset + p.chunkSize..until]
    ensures from <= until
    ensures Flatten([PartSlice(p, part, Window(content, offset, p.chunkSize))] + rest) == content[from..until]
  {
    InnerPartSlice(content, offset, part, p, from);
    JoinSlices(content, PartSlice(p, part, Window(content, offset, p.chunkSize)), rest,
               from, offset + p.chunkSize, until);
  }

  /** Range correctness of the direct stream: when the remote serves the file
      and the cuts describe the byte range `[offset + firstPartCut, until)`,
      `yield_file` yields `partCount` chunks whose concatenation is exactly
      that range: `chunk0[first:] + chunk1 + ... + chunkN[:last]`, or
      `chunk0[first:last]` for a single part. */
  lemma StreamDeliversRange(remote: Remote, loc: Location, content: seq<byte>, offset: nat,
                            p: StreamParams, until: int)
    requires p.chunkSize > 0 && Serves(remote, loc, content, p.chunkSize)
    requires 1 <= p.partCount
    requires 0 <= p.firstPartCut < p.chunkSize && 0 < p.lastPartCut <= p.chunkSize
    requires p.partCount == 1 ==> p.firstPartCut <= p.lastPartCut
    requires until == offset + (p.partCount - 1) * p.chunkSize + p.lastPartCut <= |content|
    ensures offset + p.firstPartCut <= until
    ensures StreamSpec(remote, loc, offset, p).end == Done
    ensures |StreamSpec(remote, loc, offset, p).parts| == p.partCount
    ensures Flatten(StreamSpec(remote, loc, offset, p).parts) == content[offset + p.firstPartCut..until]
  {
    assert remote.getFile(loc, offset).File?;
    SpanIsProduct(p.partCount - 1, p.chunkSize);
    DirectServesExpected(remote, loc, content, offset, 1, p);
    ExpectedLength(content, offset, 1, p);
    ExpectedIsRange(content, offset, 1, p, offset + p.firstPartCut, until);
  }

  /** Three parts of 1 MiB chunks with cuts 100 and 500000: the stream
      yields `chunk0[100:]`, `chunk1` whole and `chunk2[:500000]`. */
  lemma ThreePartExample(remote: Remote, loc: Location, offset: int, c0: seq<byte>, c1: seq<byte>,
                         c2: seq<byte>)
    requires c0 != [] && c1 != [] && c2 != []
    requires remote.getFile(loc, offset) == File(c0)
    requires remote.getFile(loc, offset + 1048576) == File(c1)
    requires remote.getFile(loc, offset + 2097152) == File(c2)
    ensures StreamSpec(remote, loc, offset, StreamParams(100, 500000, 3, 1048576))
            == Stream([PySlice(c0, 100, |c0|), c1, PySlice(c2, 0, 500000)], Done)
  {
    var p := StreamParams(100, 500000, 3, 1048576);
    var s2 := DirectFrom(remote, loc, File(c2), offset + 2097152, 3, p);
    assert s2 == Stream([PySlice(c2, 0, 500000)], Done);
    var s1 := DirectFrom(remote, loc, File(c1), offset + 1048576, 2, p);
    assert s1 == Then([c1], s2);
  }

  // ---------------------------------------------------------------------------
  // The CDN loop

  /** Every reupload request from round `round` on succeeded. */
  ghost predicate ReuploadedFrom(a: CdnAnswer, round: nat)
  {
    forall j :: round <= j < |a.reuploads| ==> a.reuploads[j] == Reuploaded
  }

  ghost predicate AllReuploaded(a: CdnAnswer)
  {
    ReuploadedFrom(a, 0)
  }

  /** The CDN served ciphertext at `offset` and its IV can be built. */
  ghost predicate Decryptable(remote: Remote, rd: CdnRedirect, offset: int)
  {
    remote.getCdnFile(rd.fileToken, offset).reply.CdnFile? && ChunkIv(rd.encryptionIv, offset).Some?
  }

  ghost function Plain(remote: Remote, rd: CdnRedirect, offset: int): seq<byte>
    requires Decryptable(remote, rd, offset)
  {
    remote.decrypt(remote.getCdnFile(rd.fileToken, offset).reply.bytes, rd.encryptionKey,
                   ChunkIv(rd.encryptionIv, offset).value)
  }

  /** The chunk at `offset` came through: every reupload request succeeded,
      it decrypted, and every declared hash segment matches. */
  ghost predicate Verified(remote: Remote, rd: CdnRedirect, offset: int)
  {
    && AllReuploaded(remote.getCdnFile(rd.fileToken, offset))
    && Decryptable(remote, rd, offset)
    && remote.getCdnFileHashes(rd.fileToken, offset).Hashes?
    && SegmentsMatch(Plain(remote, rd, offset), remote.getCdnFileHashes(rd.fileToken, offset).hashes,
                     remote.sha256)
  }

  /** A chunk that came through and is not empty, so the loop goes on. */
  ghost predicate Passed(remote: Remote, rd: CdnRedirect, offset: int)
  {
    Verified(remote, rd, offset) && Plain(remote, rd, offset) != []
  }

  /** A chunk that arrives and decrypts but fails the hash check. */
  ghost predicate Mismatched(remote: Remote, rd: CdnRedirect, offset: int)
  {
    && AllReuploaded(remote.getCdnFile(rd.fileToken, offset))
    && Decryptable(remote, rd, offset)
    && remote.getCdnFileHashes(rd.fileToken, offset).Hashes?
    && !SegmentsMatch(Plain(remote, rd, offset), remote.getCdnFileHashes(rd.fileToken, offset).hashes,
                      remote.sha256)
  }

  /** A reupload request retries the same offset without yielding or
      advancing: after successful reuploads the loop is where it would be had
      none been needed. */
  lemma {:induction false} CdnRetriesSameOffset(remote: Remote, rd: CdnRedirect, offset: int, part: int,
                                                round: nat, p: StreamParams)
    requires round <= |remote.getCdnFile(rd.fileToken, offset).reuploads|
    requires ReuploadedFrom(remote.getCdnFile(rd.fileToken, offset), round)
    ensures CdnFrom(remote, rd, offset, part, round, p)
            == CdnFrom(remote, rd, offset, part, |remote.getCdnFile(rd.fileToken, offset).reuploads|, p)
    decreases |remote.getCdnFile(rd.fileToken, offset).reuploads| - round
  {
    if round < |remote.getCdnFile(rd.fileToken, offset).reuploads| {
      CdnRetriesSameOffset(remote, rd, offset, part, round + 1, p);
    }
  }

  /** Nothing is yielded at an offset unless every reupload request there
      succeeded. */
  lemma {:induction false} CdnYieldNeedsReuploads(remote: Remote, rd: CdnRedirect, offset: int, part: int,
                                                  round: nat, p: StreamParams)
    requires round <= |remote.getCdnFile(rd.fileToken, offset).reuploads|
    requires CdnFrom(remote, rd, offset, part, round, p).parts != []
    ensures ReuploadedFrom(remote.getCdnFile(rd.fileToken, offset), round)
    decreases |remote.getCdnFile(rd.fileToken, offset).reuploads| - round
  {
    var rs := remote.getCdnFile(rd.fileToken, offset).reuploads;
    if round < |rs| {
      assert rs[round] == Reuploaded;
      CdnYieldNeedsReuploads(remote, rd, offset, part, round + 1, p);
    }
  }

  /** VolumeLocNotFound on a reupload ends the CDN loop quietly. */
  lemma {:induction false} CdnVolumeMissingEnds(remote: Remote, rd: CdnRedirect, offset: int, part: int,
                                                round: nat, p: StreamParams, j: nat)
    requires round <= j < |remote.getCdnFile(rd.fileToken, offset).reuploads|
    requires remote.getCdnFile(rd.fileToken, offset).reuploads[j] == VolumeMissing
    requires forall i :: round <= i < j ==> remote.getCdnFile(rd.fileToken, offset).reuploads[i] == Reuploaded
    ensures CdnFrom(remote, rd, offset, part, round, p) == Stream([], Done)
    decreases j - round
  {
    if round < j {
      CdnVolumeMissingEnds(remote, rd, offset, part, round + 1, p, j);
    }
  }

  /** Once the reupload requests at an offset are through, the loop yields at
      most the chunk at this offset, unless it goes on to the next part. */
  lemma CdnReplyStep(remote: Remote, rd: CdnRedirect, offset: int, part: int, p: StreamParams)
    ensures var s := CdnFrom(remote, rd, offset, part, |remote.getCdnFile(rd.fileToken, offset).reuploads|, p);
            || |s.parts| <= 1
            || (part + 1 <= p.partCount
                && |s.parts| == 1 + |CdnFrom(remote, rd, offset + p.chunkSize, part + 1, 0, p).parts|)
  {
  }

  /** At most one chunk per remaining part is yielded. */
  lemma {:induction false} CdnPartsBound(remote: Remote, rd: CdnRedirect, offset: int, part: int,
                                         round: nat, p: StreamParams)
    requires round <= |remote.getCdnFile(rd.fileToken, offset).reuploads|
    ensures |CdnFrom(remote, rd, offset, part, round, p).parts| <= Remaining(p, part) + 1
    decreases Remaining(p, part)
  {
    if ReuploadedFrom(remote.getCdnFile(rd.fileToken, offset), round) {
      CdnRetriesSameOffset(remote, rd, offset, part, round, p);
      CdnReplyStep(remote, rd, offset, part, p);
      if part + 1 <= p.partCount {
        CdnPartsBound(remote, rd, offset + p.chunkSize, part + 1, 0, p);
      }
    } else if CdnFrom(remote, rd, offset, part, round, p).parts != [] {
      CdnYieldNeedsReuploads(remote, rd, offset, part, round, p);
    }
  }

  /** The `k`-th chunk the CDN loop yields is the slice, for its part, of the
      verified, non-empty plaintext of the chunk `k` chunk sizes after
      `offset`, decrypted with that offset's IV. */
  lemma {:induction false} CdnPartsAreVerifiedSlices(remote: Remote, rd: CdnRedirect, offset: int, part: int,
                                                     p: StreamParams, k: nat)
    requires k < |CdnFrom(remote, rd, offset, part, 0, p).parts|
    ensures Passed(remote, rd, PartOffset(offset, p.chunkSize, k))
    ensures CdnFrom(remote, rd, offset, part, 0, p).parts[k]
            == PartSlice(p, part + k, Plain(remote, rd, PartOffset(offset, p.chunkSize, k)))
    decreases k
  {
    if k == 0 {
      CdnFirstPart(remote, rd, offset, part, p);
    } else {
      CdnPartsShift(remote, rd, offset, part, p, k);
      CdnPartsAreVerifiedSlices(remote, rd, offset + p.chunkSize, part + 1, p, k - 1);
    }
  }

  /** The first yield of the CDN loop is the slice of a chunk that came through. */
  lemma CdnFirstPart(remote: Remote, rd: CdnRedirect, offset: int, part: int, p: StreamParams)
    requires CdnFrom(remote, rd, offset, part, 0, p).parts != []
    ensures Passed(remote, rd, offset)
    ensures CdnFrom(remote, rd, offset, part, 0, p).parts[0] == PartSlice(p, part, Plain(remote, rd, offset))
  {
    CdnYieldStep(remote, rd, offset, part, p);
    CdnVerifiedStep(remote, rd, offset, part, p);
  }

  /** Past the first yield, the CDN loop's yields are those of the loop
      started one chunk further on, at the next part. */
  lemma CdnPartsShift(remote: Remote, rd: CdnRedirect, offset: int, part: int, p: StreamParams, k: nat)
    requires 0 < k < |CdnFrom(remote, rd, offset, part, 0, p).parts|
    ensures k - 1 < |CdnFrom(remote, rd, offset + p.chunkSize, part + 1, 0, p).parts|
    ensures CdnFrom(remote, rd, offset, part, 0, p).parts[k]
            == CdnFrom(remote, rd, offset + p.chunkSize, part + 1, 0, p).parts[k - 1]
  {
    CdnYieldStep(remote, rd, offset, part, p);
    CdnVerifiedStep(remote, rd, offset, part, p);
  }

  /** A chunk that came through checks out as its decrypted plaintext. */
  lemma VerifiedChecks(remote: Remote, rd: CdnRedirect, offset: int)
    requires Verified(remote, rd, offset)
    ensures CheckChunk(remote, rd, offset) == Plaintext(Plain(remote, rd, offset))
  {
  }

  /** A chunk that checks out after every reupload succeeded came through. */
  lemma ChecksVerified(remote: Remote, rd: CdnRedirect, offset: int)
    requires AllReuploaded(remote.getCdnFile(rd.fileToken, offset))
    requires CheckChunk(remote, rd, offset).Plaintext?
    ensures Verified(remote, rd, offset)
    ensures CheckChunk(remote, rd, offset).plain == Plain(remote, rd, offset)
  {
  }

  /** Anything yielded at an offset comes from a chunk that came through and
      is not empty. */
  lemma CdnYieldStep(remote: Remote, rd: CdnRedirect, offset: int, part: int, p: StreamParams)
    requires CdnFrom(remote, rd, offset, part, 0, p).parts != []
    ensures Passed(remote, rd, offset)
  {
    var rs := remote.getCdnFile(rd.fileToken, offset).reuploads;
    CdnYieldNeedsReuploads(remote, rd, offset, part, 0, p);
    CdnRetriesSameOffset(remote, rd, offset, part, 0, p);
    assert CdnFrom(remote, rd, offset, part, |rs|, p).parts != [];
    ChecksVerified(remote, rd, offset);
  }

  /** One step of the CDN loop over a chunk that came through. */
  lemma CdnVerifiedStep(remote: Remote, rd: CdnRedirect, offset: int, part: int, p: StreamParams)
    requires Passed(remote, rd, offset)
    ensures CdnFrom(remote, rd, offset, part, 0, p)
            == if part + 1 > p.partCount then Stream([PartSlice(p, part, Plain(remote, rd, offset))], Done)
               else Then([PartSlice(p, part, Plain(remote, rd, offset))],
                         CdnFrom(remote, rd, offset + p.chunkSize, part + 1, 0, p))
  {
    CdnRetriesSameOffset(remote, rd, offset, part, 0, p);
    VerifiedChecks(remote, rd, offset);
  }

  /** The CDN loop over a chunk whose hash segments do not all match. */
  lemma CdnMismatchStep(remote: Remote, rd: CdnRedirect, offset: int, part: int, p: StreamParams)
    requires Mismatched(remote, rd, offset)
    ensures CdnFrom(remote, rd, offset, part, 0, p) == Stream([], Raised(CdnHashMismatch))
  {
    CdnRetriesSameOffset(remote, rd, offset, part, 0, p);
    assert CheckChunk(remote, rd, offset) == Rejected(CdnHashMismatch);
  }

  /** The `k` chunks from `offset` on come through, each non-empty, and the
      one after them fails the hash check. */
  ghost predicate AbortsAfter(remote: Remote, rd: CdnRedirect, offset: int, chunkSize: int, k: nat)
    decreases k
  {
    if k == 0 then Mismatched(remote, rd, offset)
    else Passed(remote, rd, offset) && AbortsAfter(remote, rd, offset + chunkSize, chunkSize, k - 1)
  }

  /** A hash mismatch is fatal: once the first `k` chunks came through, a
      mismatch in chunk `k` ends the stream with CDNFileHashMismatch after
      exactly those `k` chunks. */
  lemma {:induction false} CdnHashMismatchAborts(remote: Remote, rd: CdnRedirect, offset: int, part: int,
                                                 p: StreamParams, k: nat)
    requires AbortsAfter(remote, rd, offset, p.chunkSize, k)
    requires k == 0 || part + k <= p.partCount
    ensures |CdnFrom(remote, rd, offset, part, 0, p).parts| == k
    ensures CdnFrom(remote, rd, offset, part, 0, p).end == Raised(CdnHashMismatch)
    decreases k
  {
    if k == 0 {
      CdnMismatchStep(remote, rd, offset, part, p);
    } else {
      CdnVerifiedStep(remote, rd, offset, part, p);
      CdnHashMismatchAborts(remote, rd, offset + p.chunkSize, part + 1, p, k - 1);
    }
  }

  /** The `k` chunks from `offset` on all come through and are non-empty. */
  ghost predicate AllPass(remote: Remote, rd: CdnRedirect, offset: int, chunkSize: int, k: nat)
    decreases k
  {
    k == 0 || (Passed(remote, rd, offset) && AllPass(remote, rd, offset + chunkSize, chunkSize, k - 1))
  }

  /** When every chunk for the remaining parts comes through, the CDN loop
      yields one chunk per part, the current one included, and ends normally. */
  lemma {:induction false} CdnServesAll(remote: Remote, rd: CdnRedirect, offset: int, part: int, p: StreamParams)
    requires AllPass(remote, rd, offset, p.chunkSize, Remaining(p, part) + 1)
    ensures |CdnFrom(remote, rd, offset, part, 0, p).parts| == Remaining(p, part) + 1
    ensures CdnFrom(remote, rd, offset, part, 0, p).end == Done
    decreases Remaining(p, part)
  {
    CdnVerifiedStep(remote, rd, offset, part, p);
    if part + 1 <= p.partCount {
      CdnServesAll(remote, rd, offset + p.chunkSize, part + 1, p);
    }
  }

  /** Whatever the first response, the stream yields at most `partCount`
      chunks (one when `partCount` is below one). */
  lemma StreamPartsBound(remote: Remote, loc: Location, offset: int, p: StreamParams)
    ensures |StreamSpec(remote, loc, offset, p).parts| <= if p.partCount < 1 then 1 else p.partCount
  {
    match remote.getFile(loc, offset)
    case File(_) => DirectPartsBound(remote, loc, remote.getFile(loc, offset), offset, 1, p);
    case FileCdnRedirect(rd) => CdnPartsBound(remote, rd, offset, 1, 0, p);
    case OtherResponse =>
    case RequestFailed(_) =>
  }
}

=== FILE: chunks.dfy ===
/** The chunk streaming loops of `ByteStreamer.yield_file`: the slice policy
    for the first and last part, the direct `upload.getFile` loop and the CDN
    loop with its reupload retry, IV derivation and hash-segment check.

    Every remote call is an oracle in `Remote`; each loop is a method proved
    against a recursive specification (`DirectFrom`, `CdnFrom`) that yields
    the same chunks and ends the same way. */
module Chunks {
  import opened Basics
  import opened Locations

  /** The byte-range arguments of `yield_file`. */
  datatype StreamParams = StreamParams(
    firstPartCut: int,
    lastPartCut: int,
    partCount: int,
    chunkSize: int)

  /** The answer to `upload.GetFile`, or the exception its invoke raised. */
  datatype FileResponse =
    | File(bytes: seq<byte>)
    | FileCdnRedirect(redirect: CdnRedirect)
    | OtherResponse                 // any other object: it has no `bytes`
    | RequestFailed(error: Exc)

  datatype CdnRedirect = CdnRedirect(
    dcId: int,
    fileToken: seq<byte>,
    encryptionKey: seq<byte>,
    encryptionIv: seq<byte>)

  /** The outcome of one `upload.ReuploadCdnFile` request. */
  datatype Reupload = Reuploaded | VolumeMissing | ReuploadFailed(error: Exc)

  datatype CdnReply = CdnFile(bytes: seq<byte>) | CdnFailed(error: Exc)

  /** How the CDN answers `upload.GetCdnFile` at one offset: with
      `CdnFileReuploadNeeded` once per element of `reuploads` (each followed by
      the reupload request's outcome), then with `reply`. */
  datatype CdnAnswer = CdnAnswer(reuploads: seq<Reupload>, reply: CdnReply)

  /** One entry of `upload.GetCdnFileHashes`; its own offset is not used. */
  datatype FileHash = FileHash(limit: int, hash: seq<byte>)

  datatype HashesReply = Hashes(hashes: seq<FileHash>) | HashesFailed(error: Exc)

  /** The remote calls the loops make, and the crypto they use (AES-256-CTR
      decryption and SHA-256, both left uninterpreted). */
  datatype Remote = Remote(
    getFile: (Location, int) -> FileResponse,
    getCdnFile: (seq<byte>, int) -> CdnAnswer,
    getCdnFileHashes: (seq<byte>, int) -> HashesReply,
    decrypt: (seq<byte>, seq<byte>, seq<byte>) -> seq<byte>,
    sha256: seq<byte> -> seq<byte>)

  /** How the body of the outer `try` ends: normally, or raising. */
  datatype End = Done | Raised(error: Exc)

  /** The chunks a stream yields, in order, and how it ends. */
  datatype Stream = Stream(parts: seq<seq<byte>>, end: End)

  function Then(ys: seq<seq<byte>>, s: Stream): Stream
  {
    Stream(ys + s.parts, s.end)
  }

  /** What is yielded of the chunk fetched for part `part` (1-based). */
  function PartSlice(p: StreamParams, part: int, chunk: seq<byte>): (r: seq<byte>)
    ensures |r| <= |chunk|
    // a single part is cut on both sides ...
    ensures p.partCount == 1 && 0 <= p.firstPartCut <= p.lastPartCut <= |chunk| ==>
              r == chunk[p.firstPartCut..p.lastPartCut]
    // ... otherwise the first part loses its head, the last its tail
    ensures p.partCount != 1 && part == 1 && 0 <= p.firstPartCut <= |chunk| ==> r == chunk[p.firstPartCut..]
    ensures p.partCount != 1 && part != 1 && part == p.partCount && 0 <= p.lastPartCut <= |chunk| ==>
              r == chunk[..p.lastPartCut]
    // and the parts in between are yielded whole
    ensures 1 < part < p.partCount ==> r == chunk
  {
    if p.partCount == 1 then PySlice(chunk, p.firstPartCut, p.lastPartCut)
    else if part == 1 then PySlice(chunk, p.firstPartCut, |chunk|)
    else if part == p.partCount then PySlice(chunk, 0, p.lastPartCut)
    else chunk
  }

  /** Parts still allowed after part `part`. */
  function Remaining(p: StreamParams, part: int): nat
  {
    if part < p.partCount then p.partCount - part else 0
  }

  /** The direct loop from part `part` on, where `r` is the response to the
      request at `offset`. */
  ghost function DirectFrom(remote: Remote, loc: Location, r: FileResponse, offset: int,
                            part: int, p: StreamParams): Stream
    decreases Remaining(p, part)
  {
    match r
    case File(chunk) =>
      if chunk == [] then Stream([], Done)
      else if part + 1 > p.partCount then Stream([PartSlice(p, part, chunk)], Done)
      else
        var next := offset + p.chunkSize;
        Then([PartSlice(p, part, chunk)],
             DirectFrom(remote, loc, remote.getFile(loc, next), next, part + 1, p))
    case RequestFailed(e) => Stream([], Raised(e))
    case _ => Stream([], Raised(AttributeErr))
  }

  /** The AES-CTR IV for the chunk at `offset`:
      `encryption_iv[:-4] + (offset // 16).to_bytes(4, "big")`. Python's `//`
      by 16 agrees with Dafny's `/` on every integer. */
  function ChunkIv(baseIv: seq<byte>, offset: int): (r: Option<seq<byte>>)
    ensures r.Some? <==> 0 <= offset / 16 < TwoTo32
    ensures r.Some? ==> |r.value| == (if |baseIv| >= 4 then |baseIv| else 4)
    // the base IV is kept but for its last four bytes ...
    ensures r.Some? ==> forall i :: 0 <= i < |r.value| - 4 ==> r.value[i] == baseIv[i]
    // ... which now count the 16-byte blocks before `offset`
    ensures r.Some? ==> FromBigEndian(r.value[|r.value| - 4..]) == offset / 16
  {
    match ToBytes4(offset / 16)
    case None => None
    case Some(counter) =>
      var iv := PySlice(baseIv, 0, -4) + counter;
      assert iv[|iv| - 4..] == counter;
      Some(iv)
  }

  /** The hash check: hash `i` covers `decrypted[limit*i : limit*(i+1)]`. */
  ghost predicate SegmentsMatch(plain: seq<byte>, hashes: seq<FileHash>, sha256: seq<byte> -> seq<byte>)
  {
    forall i :: 0 <= i < |hashes| ==>
      hashes[i].hash == sha256(PySlice(plain, hashes[i].limit * i, hashes[i].limit * (i + 1)))
  }

  /** What the CDN's final reply at an offset amounts to: the plaintext that
      passed the hash check, or the error that ends the loop there. */
  datatype ChunkCheck = Plaintext(plain: seq<byte>) | Rejected(error: Exc)

  /** Decrypt the reply at `offset` with that offset's IV and check it
      against the hashes the upstream declares for it. */
  ghost function CheckChunk(remote: Remote, rd: CdnRedirect, offset: int): ChunkCheck
  {
    match remote.getCdnFile(rd.fileToken, offset).reply
    case CdnFailed(e) => Rejected(e)
    case CdnFile(bytes) =>
      match ChunkIv(rd.encryptionIv, offset)
      case None => Rejected(OverflowErr)
      case Some(iv) =>
        var plain := remote.decrypt(bytes, rd.encryptionKey, iv);
        match remote.getCdnFileHashes(rd.fileToken, offset)
        case HashesFailed(e) => Rejected(e)
        case Hashes(hashes) =>
          if SegmentsMatch(plain, hashes, remote.sha256) then Plaintext(plain) else Rejected(CdnHashMismatch)
  }

  /** The CDN loop from part `part` on, at `offset`, after `round` reupload
      rounds at this offset. */
  ghost function CdnFrom(remote: Remote, rd: CdnRedirect, offset: int, part: int, round: nat,
                         p: StreamParams): Stream
    decreases Remaining(p, part), |remote.getCdnFile(rd.fileToken, offset).reuploads| - round
  {
    var answer := remote.getCdnFile(rd.fileToken, offset);
    if round < |answer.reuploads| then
      match answer.reuploads[round]
      case Reuploaded => CdnFrom(remote, rd, offset, part, round + 1, p)
      case VolumeMissing => Stream([], Done)
      case ReuploadFailed(e) => Stream([], Raised(e))
    else
      match CheckChunk(remote, rd, offset)
      case Rejected(e) => Stream([], Raised(e))
      case Plaintext(plain) =>
        if plain == [] then Stream([], Done)
        else if part + 1 > p.partCount then Stream([PartSlice(p, part, plain)], Done)
        else Then([PartSlice(p, part, plain)], CdnFrom(remote, rd, offset + p.chunkSize, part + 1, 0, p))
  }

  /** The body of the outer `try` in `yield_file`, once the session and the
      location are known. */
  ghost function StreamSpec(remote: Remote, loc: Location, offset: int, p: StreamParams): (r: Stream)
    // only a file or a CDN redirect yields anything
    ensures r.parts != [] ==> remote.getFile(loc, offset).File? || remote.getFile(loc, offset).FileCdnRedirect?
    // a failed first request raises its error; any other answer ends quietly
    ensures remote.getFile(loc, offset).RequestFailed? ==> r.end == Raised(remote.getFile(loc, offset).error)
    ensures remote.getFile(loc, offset).OtherResponse? ==> r.end == Done
  {
    match remote.getFile(loc, offset)
    case File(_) => DirectFrom(remote, loc, remote.getFile(loc, offset), offset, 1, p)
    case FileCdnRedirect(rd) => CdnFrom(remote, rd, offset, 1, 0, p)
    case OtherResponse => Stream([], Done)
    case RequestFailed(e) => Stream([], Raised(e))
  }

  /** The outer `except` clauses: a timeout or an attribute error ends the
      stream quietly, anything else propagates unchanged. */
  function Handled(raw: End): (r: End)
    ensures r == Done <==> (raw == Done || raw == Raised(TimeoutErr) || raw == Raised(AttributeErr))
    ensures r.Raised? ==> r == raw
  {
    match raw
    case Raised(TimeoutErr) => Done
    case Raised(AttributeErr) => Done
    case _ => raw
  }

  /** The `for i, h in enumerate(hashes)` check; `false` is where
      CDNFileHashMismatch is raised. */
  method VerifyHashes(plain: seq<byte>, hashes: seq<FileHash>, sha256: seq<byte> -> seq<byte>)
    returns (ok: bool)
    ensures ok <==> SegmentsMatch(plain, hashes, sha256)
  {
    for i := 0 to |hashes|
      invariant forall j :: 0 <= j < i ==>
        hashes[j].hash == sha256(PySlice(plain, hashes[j].limit * j, hashes[j].limit * (j + 1)))
    {
      var h := hashes[i];
      if h.hash != sha256(PySlice(plain, h.limit * i, h.limit * (i + 1))) {
        return false;
      }
    }
    return true;
  }

  /** The direct `while True` loop, entered when the first response is a file. */
  method DirectLoop(remote: Remote, loc: Location, offset: int, p: StreamParams)
    returns (ys: seq<seq<byte>>, end: End)
    requires remote.getFile(loc, offset).File?
    ensures Stream(ys, end) == DirectFrom(remote, loc, remote.getFile(loc, offset), offset, 1, p)
  {
    var r := remote.getFile(loc, offset);
    var part, off := 1, offset;
    ys := [];
    while true
      invariant !r.RequestFailed?
      invariant DirectFrom(remote, loc, remote.getFile(loc, offset), offset, 1, p)
                == Then(ys, DirectFrom(remote, loc, r, off, part, p))
      decreases Remaining(p, part)
    {
      if !r.File? {
        // reading `r.bytes` of a response that has none
        end := Raised(AttributeErr);
        return;
      }
      var chunk := r.bytes;
      if chunk == [] {
        end := Done;
        return;
      }
      ys := ys + [PartSlice(p, part, chunk)];
      part := part + 1;
      off := off + p.chunkSize;
      if part > p.partCount {
        end := Done;
        return;
      }
      r := remote.getFile(loc, off);
      if r.RequestFailed? {
        end := Raised(r.error);
        return;
      }
    }
  }

  /** The CDN `while True` loop, entered on a `FileCdnRedirect`. */
  method CdnLoop(remote: Remote, rd: CdnRedirect, offset: int, p: StreamParams)
    returns (ys: seq<seq<byte>>, end: End)
    ensures Stream(ys, end) == CdnFrom(remote, rd, offset, 1, 0, p)
  {
    var part, off, round := 1, offset, 0;
    ys := [];
    while true
      invariant round <= |remote.getCdnFile(rd.fileToken, off).reuploads|
      invariant CdnFrom(remote, rd, offset, 1, 0, p) == Then(ys, CdnFrom(remote, rd, off, part, round, p))
      decreases Remaining(p, part), |remote.getCdnFile(rd.fileToken, off).reuploads| - round
    {
      var answer := remote.getCdnFile(rd.fileToken, off);
      if round < |answer.reuploads| {
        // CdnFileReuploadNeeded: ask for a reupload, then retry the same offset
        var reupload := answer.reuploads[round];
        if reupload.VolumeMissing? {
          end := Done;
          return;
        } else if reupload.ReuploadFailed? {
          end := Raised(reupload.error);
          return;
        }
        round := round + 1;
      } else if answer.reply.CdnFailed? {
        end := Raised(answer.reply.error);
        return;
      } else {
        var iv := ChunkIv(rd.encryptionIv, off);
        if iv.None? {
          end := Raised(OverflowErr);
          return;
        }
        var plain := remote.decrypt(answer.reply.bytes, rd.encryptionKey, iv.value);
        var hashes := remote.getCdnFileHashes(rd.fileToken, off);
        if hashes.HashesFailed? {
          end := Raised(hashes.error);
          return;
        }
        var ok := VerifyHashes(plain, hashes.hashes, remote.sha256);
        if !ok {
          end := Raised(CdnHashMismatch);
          return;
        }
        if plain == [] {
          end := Done;
          return;
        }
        ys := ys + [PartSlice(p, part, plain)];
        part := part + 1;
        off := off + p.chunkSize;
        round := 0;
        if part > p.partCount {
          end := Done;
          return;
        }
      }
    }
  }
}

=== FILE: locations.dfy ===
/** The file descriptor a stored file id resolves to, and the remote location
    the streamer asks the upstream for (`ByteStreamer.get_location`). */
module Locations {
  import opened Basics

  /** The media kinds a descriptor can carry; only chat photos and photos are
      addressed differently from the rest. */
  datatype FileType =
    | ChatPhoto | Photo | Thumbnail | Voice | Video | Document
    | Sticker | Audio | Animation | VideoNote | OtherType

  datatype ThumbnailSource =
    | Legacy | ThumbnailSrc | ChatPhotoSmall | ChatPhotoBig | StickerSetThumbnail

  /** A resolved descriptor. `index` is the upstream connection that resolved it;
      the chat fields are meaningful for chat photos only. */
  datatype FileId = FileId(
    dcId: int,
    mediaId: int,
    accessHash: int,
    fileReference: seq<byte>,
    fileType: FileType,
    thumbnailSource: ThumbnailSource,
    thumbnailSize: string,
    chatId: int,
    chatAccessHash: int,
    index: int)

  datatype Peer =
    | InputPeerUser(userId: int, accessHash: int)
    | InputPeerChat(chatId: int)
    | InputPeerChannel(channelId: int, accessHash: int)

  datatype Location =
    | InputPeerPhotoFileLocation(peer: Peer, photoId: int, big: bool)
    | InputPhotoFileLocation(id: int, accessHash: int, fileReference: seq<byte>, thumbSize: string)
    | InputDocumentFileLocation(id: int, accessHash: int, fileReference: seq<byte>, thumbSize: string)

  /** The media a location addresses. */
  function MediaIdOf(loc: Location): int
  {
    match loc
    case InputPeerPhotoFileLocation(_, photoId, _) => photoId
    case InputPhotoFileLocation(id, _, _, _) => id
    case InputDocumentFileLocation(id, _, _, _) => id
  }

  /** The signed ("marked") chat id a user or basic-chat peer stands for:
      users are positive, basic chats are negated. */
  function MarkedId(peer: Peer): Option<int>
  {
    match peer
    case InputPeerUser(userId, _) => Some(userId)
    case InputPeerChat(chatId) => Some(-chatId)
    case InputPeerChannel(_, _) => None
  }

  /** `get_location`: the location to fetch a descriptor's bytes from.
      `channelId` stands for hydrogram's `utils.get_channel_id`. */
  function GetLocation(f: FileId, channelId: int -> int): (loc: Location)
    // one location kind per descriptor kind
    ensures loc.InputPeerPhotoFileLocation? <==> f.fileType == ChatPhoto
    ensures loc.InputPhotoFileLocation? <==> f.fileType == Photo
    ensures loc.InputDocumentFileLocation? <==> f.fileType != ChatPhoto && f.fileType != Photo
    // every location addresses the descriptor's media
    ensures MediaIdOf(loc) == f.mediaId
    // chat photos: the peer kind follows the sign of the chat id and the access hash
    ensures loc.InputPeerPhotoFileLocation? ==>
      && (loc.big <==> f.thumbnailSource == ChatPhotoBig)
      && (loc.peer.InputPeerUser? <==> f.chatId > 0)
      && (loc.peer.InputPeerChat? <==> f.chatId <= 0 && f.chatAccessHash == 0)
      && (loc.peer.InputPeerChannel? ==> loc.peer.channelId == channelId(f.chatId))
      && (!loc.peer.InputPeerChat? ==> loc.peer.accessHash == f.chatAccessHash)
      && (MarkedId(loc.peer).Some? ==> MarkedId(loc.peer).value == f.chatId)
    // photos and documents carry the descriptor's credentials unchanged
    ensures !loc.InputPeerPhotoFileLocation? ==>
      && loc.accessHash == f.accessHash
      && loc.fileReference == f.fileReference
      && loc.thumbSize == f.thumbnailSize
  {
    if f.fileType == ChatPhoto then
      var peer :=
        if f.chatId > 0 then InputPeerUser(f.chatId, f.chatAccessHash)
        else if f.chatAccessHash == 0 then InputPeerChat(-f.chatId)
        else InputPeerChannel(channelId(f.chatId), f.chatAccessHash);
      InputPeerPhotoFileLocation(peer, f.mediaId, f.thumbnailSource == ChatPhotoBig)
    else if f.fileType == Photo then
      InputPhotoFileLocation(f.mediaId, f.accessHash, f.fileReference, f.thumbnailSize)
    else
      InputDocumentFileLocation(f.mediaId, f.accessHash, f.fileReference, f.thumbnailSize)
  }
}

=== FILE: sessions.dfy ===
/** Media sessions and their owners: the per-connection session table of
    `generate_media_session`, and its bounded cross-data-center authorization
    import. */
module Sessions {
  import opened Basics

  /** A session to one data center (hydrogram's `Session`); the streamer only
      looks at whether it is started (`is_started`). */
  class Session {
    const dcId: int
    const isCdn: bool
    var started: bool

    constructor (dcId: int, isCdn: bool)
      ensures this.dcId == dcId && this.isCdn == isCdn && !started
    {
      this.dcId := dcId;
      this.isCdn := isCdn;
      started := false;
    }

    method Start()
      modifies this
      ensures started
    {
      started := true;
    }

    method Stop()
      modifies this
      ensures !started
    {
      started := false;
    }
  }

  /** An upstream connection: its home data center (`storage.dc_id()`) and its
      table of media sessions keyed by data-center id (`media_sessions`). */
  class Client {
    const homeDc: int
    var mediaSessions: map<int, Session>

    /** Each entry is a media session to the data center it is filed under. */
    ghost predicate Valid()
      reads this
    {
      forall dc :: dc in mediaSessions ==> mediaSessions[dc].dcId == dc && !mediaSessions[dc].isCdn
    }

    /** The session filed under `dc`, if any: all a session request may touch. */
    ghost function Entry(dc: int): set<Session>
      reads this
    {
      if dc in mediaSessions then {mediaSessions[dc]} else {}
    }

    constructor (homeDc: int)
      ensures Valid() && this.homeDc == homeDc && mediaSessions == map[]
    {
      this.homeDc := homeDc;
      mediaSessions := map[];
    }
  }

  /** A session in the table that can be reused as it is. */
  ghost predicate Live(sessions: map<int, Session>, dc: int)
    reads sessions.Values
  {
    dc in sessions && sessions[dc].started
  }

  /** What one export/import round trip does: the import is accepted, refused
      with AuthBytesInvalid, or either call raises something else. */
  datatype AuthAttempt = Accepted | BytesInvalid | AttemptFailed(error: Exc)

  const ImportAttempts: nat := 6

  datatype ImportOutcome =
    | Imported(attempts: nat)
    | Exhausted
    | ImportFailed(error: Exc, attempts: nat)

  /** The retry policy from attempt `k` on: stop at the first attempt that is
      not refused with AuthBytesInvalid, give up after six. */
  function RetryImport(attempt: nat -> AuthAttempt, k: nat): (r: ImportOutcome)
    requires k <= ImportAttempts
    // an early stop is at an attempt from `k` on, within the six, that was
    // accepted or raised the error reported
    ensures r.Imported? ==> k < r.attempts <= ImportAttempts && attempt(r.attempts - 1) == Accepted
    ensures r.ImportFailed? ==>
              k < r.attempts <= ImportAttempts && attempt(r.attempts - 1) == AttemptFailed(r.error)
    // ... and every attempt before it was refused
    ensures r.Imported? || r.ImportFailed? ==> forall j :: k <= j < r.attempts - 1 ==> attempt(j) == BytesInvalid
    decreases ImportAttempts - k
  {
    if k == ImportAttempts then Exhausted
    else match attempt(k)
      case Accepted => Imported(k + 1)
      case BytesInvalid => RetryImport(attempt, k + 1)
      case AttemptFailed(e) => ImportFailed(e, k + 1)
  }

  /** The import succeeds at attempt `n` exactly when attempt `n` is the first
      one not refused and it is accepted, within the six allowed. */
  lemma {:induction false} ImportedAtFirstAccepted(attempt: nat -> AuthAttempt, k: nat, n: nat)
    requires k <= ImportAttempts
    ensures RetryImport(attempt, k) == Imported(n) <==>
      (k < n <= ImportAttempts && attempt(n - 1) == Accepted
       && forall j :: k <= j < n - 1 ==> attempt(j) == BytesInvalid)
    decreases ImportAttempts - k
  {
    if k < ImportAttempts && attempt(k) == BytesInvalid {
      ImportedAtFirstAccepted(attempt, k + 1, n);
      if k < n - 1 {
        assert attempt(k) == BytesInvalid;
      }
    }
  }

  /** The import fails with error `e` after exactly `n` attempts iff attempt
      `n` is the first one not refused and it raised `e`, within the six. */
  lemma {:induction false} FailedAtFirstRaised(attempt: nat -> AuthAttempt, k: nat, e: Exc, n: nat)
    requires k <= ImportAttempts
    ensures RetryImport(attempt, k) == ImportFailed(e, n) <==>
      (k < n <= ImportAttempts && attempt(n - 1) == AttemptFailed(e)
       && forall j :: k <= j < n - 1 ==> attempt(j) == BytesInvalid)
    decreases ImportAttempts - k
  {
    if k < ImportAttempts && attempt(k) == BytesInvalid {
      FailedAtFirstRaised(attempt, k + 1, e, n);
      if k < n - 1 {
        assert attempt(k) == BytesInvalid;
      }
    }
  }

  /** The import gives up exactly when all six attempts are refused. */
  lemma {:induction false} ExhaustedIffAllRefused(attempt: nat -> AuthAttempt, k: nat)
    requires k <= ImportAttempts
    ensures RetryImport(attempt, k) == Exhausted <==>
      forall j :: k <= j < ImportAttempts ==> attempt(j) == BytesInvalid
    decreases ImportAttempts - k
  {
    if k < ImportAttempts && attempt(k) == BytesInvalid {
      ExhaustedIffAllRefused(attempt, k + 1);
    }
  }

  /** The `for _ in range(6)` loop: export, import, break on success, continue
      on AuthBytesInvalid, let anything else propagate. */
  method ImportWithRetry(attempt: nat -> AuthAttempt) returns (r: ImportOutcome)
    ensures r == RetryImport(attempt, 0)
    ensures r.Imported? ==> 1 <= r.attempts <= ImportAttempts
    ensures r.ImportFailed? ==> 1 <= r.attempts <= ImportAttempts
  {
    for k := 0 to ImportAttempts
      invariant RetryImport(attempt, 0) == RetryImport(attempt, k)
    {
      match attempt(k)
      case Accepted =>
        return Imported(k + 1);
      case BytesInvalid =>
      case AttemptFailed(e) =>
        return ImportFailed(e, k + 1);
    }
    r := Exhausted;
  }

  /** What `generate_media_session` raises, if anything: nothing when a live
      session is reused or the media lives on the home data center; otherwise
      the outcome of the authorization import. */
  function SessionFailure(reusable: bool, homeDc: int, dc: int, attempt: nat -> AuthAttempt): (r: Option<Exc>)
    // reusing a session, or opening one on the home data center, cannot fail
    ensures reusable || dc == homeDc ==> r.None?
    // what is raised is the give-up after six refusals, or the error of the
    // first attempt that was not refused
    ensures r.Some? ==>
              (r.value == AuthBytesInvalid && forall j :: 0 <= j < ImportAttempts ==> attempt(j) == BytesInvalid)
              || exists n :: 0 <= n < ImportAttempts && attempt(n) == AttemptFailed(r.value)
                             && forall j :: 0 <= j < n ==> attempt(j) == BytesInvalid
  {
    if reusable || dc == homeDc then None
    else match RetryImport(attempt, 0)
      case Imported(_) => None
      case Exhausted =>
        ExhaustedIffAllRefused(attempt, 0);
        Some(AuthBytesInvalid)
      case ImportFailed(e, n) =>
        assert attempt(n - 1) == AttemptFailed(e);
        Some(e)
  }

  /** A session on a foreign data center fails with AuthBytesInvalid exactly
      when all six imports are refused, and is handed out exactly when one is
      accepted after refusals only. */
  lemma SessionFailureCases(homeDc: int, dc: int, attempt: nat -> AuthAttempt)
    requires dc != homeDc
    ensures (forall j :: 0 <= j < ImportAttempts ==> attempt(j) == BytesInvalid)
            ==> SessionFailure(false, homeDc, dc, attempt) == Some(AuthBytesInvalid)
    ensures SessionFailure(false, homeDc, dc, attempt).None? <==>
      exists n :: 0 <= n < ImportAttempts && attempt(n) == Accepted
                  && forall j :: 0 <= j < n ==> attempt(j) == BytesInvalid
  {
    ExhaustedIffAllRefused(attempt, 0);
    if RetryImport(attempt, 0).Imported? {
      var n := RetryImport(attempt, 0).attempts;
      ImportedAtFirstAccepted(attempt, 0, n);
      assert attempt(n - 1) == Accepted;
    } else {
      forall n | 0 <= n < ImportAttempts && attempt(n) == Accepted
        ensures exists j :: 0 <= j < n && attempt(j) != BytesInvalid
      {
        ImportedAtFirstAccepted(attempt, 0, n + 1);
      }
    }
  }
}

=== FILE: streamer.dfy ===
/** `ByteStreamer`: the per-bot cache of resolved file descriptors, the media
    session table it maintains on each upstream connection, and the streaming
    entry point `yield_file` with its workload accounting. */
module Streamer {
  import opened Basics
  import opened Locations
  import opened Workloads
  import opened Sessions
  import opened Chunks

  /** The connection a stream on `index` uses, if there is one. */
  ghost function ClientAt(clients: map<int, Client>, index: int): set<Client>
  {
    if index in clients then {clients[index]} else {}
  }

  /** The media session that connection holds for data center `dc`, if any. */
  ghost function SessionAt(clients: map<int, Client>, index: int, dc: int): set<Session>
    reads clients.Values
  {
    if index in clients then clients[index].Entry(dc) else {}
  }

  class ByteStreamer {
    /** Seconds between two clears of the cache. */
    const cleanTimer: int
    /** `cached_file_ids`: stored id to resolved descriptor. */
    var cachedFileIds: map<string, FileId>

    constructor ()
      ensures cleanTimer == 30 * 60 && cachedFileIds == map[]
    {
      cleanTimer := 30 * 60;
      cachedFileIds := map[];
    }

    /** `get_file_properties`: the cached descriptor, or a freshly resolved
        one that is cached on the way. `resolve(i, id)` is `get_file_ids` on
        connection `i`. */
    method GetFileProperties(dbId: string, loads: WorkloadTable, resolve: (int, string) -> Result<FileId>)
      returns (r: Result<FileId>)
      requires loads.Valid()
      modifies this
      ensures dbId in old(cachedFileIds) ==>
                r == Ok(old(cachedFileIds)[dbId]) && cachedFileIds == old(cachedFileIds)
      ensures dbId !in old(cachedFileIds) ==>
                match LeastLoaded(loads.order, loads.load)
                case Err(e) => r == Err(e) && cachedFileIds == old(cachedFileIds)
                case Ok(i) => r == resolve(i, dbId)
                               && cachedFileIds == if r.Ok? then old(cachedFileIds)[dbId := r.value]
                                                   else old(cachedFileIds)
      // whatever is handed out is what the cache now holds
      ensures r.Ok? ==> dbId in cachedFileIds && cachedFileIds[dbId] == r.value
    {
      if dbId !in cachedFileIds {
        r := GenerateFileProperties(dbId, loads, resolve);
        return;
      }
      r := Ok(cachedFileIds[dbId]);
    }

    /** `generate_file_properties`: resolve on the least-loaded connection
        and cache the result. An empty workload table raises ValueError; a
        failed resolution raises and leaves the cache alone. */
    method GenerateFileProperties(dbId: string, loads: WorkloadTable, resolve: (int, string) -> Result<FileId>)
      returns (r: Result<FileId>)
      requires loads.Valid()
      modifies this
      ensures match LeastLoaded(loads.order, loads.load)
              case Err(e) => r == Err(e) && cachedFileIds == old(cachedFileIds)
              case Ok(i) => r == resolve(i, dbId)
                             && cachedFileIds == if r.Ok? then old(cachedFileIds)[dbId := r.value]
                                                 else old(cachedFileIds)
    {
      var index := loads.Pick();
      if index.Err? {
        r := Err(index.error);
        return;
      }
      r := resolve(index.value, dbId);
      if r.Ok? {
        cachedFileIds := cachedFileIds[dbId := r.value];
      }
    }

    /** `generate_media_session`: reuse the started session for the media's
        data center, evicting (and stopping) one that is no longer started;
        otherwise start a new one, importing the authorization when the data
        center is not the connection's own, and register it.
        `attempt(k)` is how the `k`-th export/import round goes; `created` is
        the session this call made, if any. */
    method GenerateMediaSession(client: Client, fileId: FileId, attempt: nat -> AuthAttempt)
      returns (r: Result<Session>, ghost created: Session?)
      requires client.Valid()
      modifies client, client.Entry(fileId.dcId)
      ensures client.Valid()
      // a started session is reused and nothing changes
      ensures old(Live(client.mediaSessions, fileId.dcId)) ==>
                && r == Ok(old(client.mediaSessions[fileId.dcId]))
                && client.mediaSessions == old(client.mediaSessions)
                && created == null
      // the call fails exactly as the import policy says
      ensures r.Err? <==> SessionFailure(old(Live(client.mediaSessions, fileId.dcId)), client.homeDc,
                                         fileId.dcId, attempt).Some?
      ensures r.Err? ==> Some(r.error) == SessionFailure(false, client.homeDc, fileId.dcId, attempt)
      // a handed-out session is started and registered under the media's data center
      ensures r.Ok? ==> && r.value.started && r.value.dcId == fileId.dcId
                        && (r.value in old(client.mediaSessions.Values) || fresh(r.value))
                        && fileId.dcId in client.mediaSessions
                        && client.mediaSessions[fileId.dcId] == r.value
                        && client.mediaSessions - {fileId.dcId} == old(client.mediaSessions) - {fileId.dcId}
      // a new session is a media session; no other entry of the table changes
      ensures created != null ==> fresh(created) && created.dcId == fileId.dcId && !created.isCdn
      ensures !old(Live(client.mediaSessions, fileId.dcId)) ==> created != null
      ensures r.Ok? && created != null ==> r.value == created
      // on failure the stale entry, if any, is gone and the new session is not registered;
      // it is stopped after six refusals and left started when the import raised
      ensures r.Err? ==> && client.mediaSessions == old(client.mediaSessions) - {fileId.dcId}
                         && created != null
                         && (created.started <==> RetryImport(attempt, 0).ImportFailed?)
      // the sessions filed under other data centers are left as they were
      ensures forall dc :: dc in client.mediaSessions && dc in old(client.mediaSessions) && dc != fileId.dcId ==>
                client.mediaSessions[dc].started == old(client.mediaSessions[dc].started)
      // an evicted session that was no longer started ends stopped
      ensures old(fileId.dcId in client.mediaSessions && !client.mediaSessions[fileId.dcId].started) ==>
                !old(client.mediaSessions[fileId.dcId]).started
    {
      var dc := fileId.dcId;
      if dc in client.mediaSessions && !client.mediaSessions[dc].started {
        // a disconnected session: drop it from the table and stop it
        var stale := client.mediaSessions[dc];
        client.mediaSessions := client.mediaSessions - {dc};
        stale.Stop();
      }
      if dc in client.mediaSessions {
        r, created := Ok(client.mediaSessions[dc]), null;
        return;
      }
      var session := new Session(dc, false);
      created := session;
      session.Start();
      if dc != client.homeDc {
        var outcome := ImportWithRetry(attempt);
        match outcome {
          case Exhausted =>
            session.Stop();
            r := Err(AuthBytesInvalid);
            return;
          case ImportFailed(e, _) =>
            r := Err(e);
            return;
          case Imported(_) =>
        }
      }
      client.mediaSessions := client.mediaSessions[dc := session];
      r := Ok(session);
    }

    /** The outer `try` of `yield_file` and its `except` clauses, at the
        media's `location`: fetch the first chunk, run the direct or the CDN
        loop (the CDN session is started for it and stopped after it whatever
        happens), and on an OSError drop and stop the media session. `raw` is how the `try` body
        ends, `end` how the generator ends. */
    method ServeChunks(client: Client, session: Session, fileId: FileId, location: Location, offset: int,
                       p: StreamParams, remote: Remote)
      returns (ys: seq<seq<byte>>, raw: End, end: End, ghost cdn: Session?)
      requires client.Valid()
      modifies client, session
      // a CDN session is opened exactly for a redirect, and is stopped on every exit
      ensures cdn != null <==> remote.getFile(location, offset).FileCdnRedirect?
      ensures cdn != null ==> && fresh(cdn) && cdn.isCdn && !cdn.started
                              && cdn.dcId == remote.getFile(location, offset).redirect.dcId
      ensures client.Valid()
      ensures Stream(ys, raw) == StreamSpec(remote, location, offset, p)
      ensures end == Handled(raw)
      ensures raw == Raised(OSErr) ==>
                client.mediaSessions == old(client.mediaSessions) - {fileId.dcId} && !session.started
      ensures raw != Raised(OSErr) ==>
                client.mediaSessions == old(client.mediaSessions) && session.started == old(session.started)
    {
      var r := remote.getFile(location, offset);
      cdn := null;
      match r {
        case File(_) =>
          ys, raw := DirectLoop(remote, location, offset, p);
        case FileCdnRedirect(rd) =>
          var cdnSession := new Session(rd.dcId, true);
          cdnSession.Start();
          ys, raw := CdnLoop(remote, rd, offset, p);
          cdnSession.Stop();
          cdn := cdnSession;
        case OtherResponse =>
          ys, raw := [], Done;
        case RequestFailed(e) =>
          ys, raw := [], Raised(e);
      }
      if raw == Raised(OSErr) {
        client.mediaSessions := client.mediaSessions - {fileId.dcId};
        session.Stop();
      }
      end := Handled(raw);
    }

    /** What `yield_file` does on its connection between the counter updates:
        get the media session, then run the outer `try`. `failure` is the
        session error, if any; the stream is then empty and ends with it. */
    method SessionAndServe(client: Client, fileId: FileId, location: Location, offset: int, p: StreamParams,
                           remote: Remote, attempt: nat -> AuthAttempt)
      returns (failure: Option<Exc>, ys: seq<seq<byte>>, raw: End, end: End)
      requires client.Valid()
      modifies client, client.Entry(fileId.dcId)
      ensures client.Valid()
      ensures failure == SessionFailure(old(Live(client.mediaSessions, fileId.dcId)), client.homeDc,
                                        fileId.dcId, attempt)
      // only the entry for the media's data center can change
      ensures client.mediaSessions - {fileId.dcId} == old(client.mediaSessions) - {fileId.dcId}
      ensures forall dc :: dc in client.mediaSessions && dc in old(client.mediaSessions) && dc != fileId.dcId ==>
                client.mediaSessions[dc].started == old(client.mediaSessions[dc].started)
      ensures failure.Some? ==> ys == [] && raw == Raised(failure.value) && end == raw
      ensures failure.None? ==>
                && Stream(ys, raw) == StreamSpec(remote, location, offset, p)
                && end == Handled(raw)
                && (raw == Raised(OSErr) <==> fileId.dcId !in client.mediaSessions)
                && (raw != Raised(OSErr) ==> client.mediaSessions[fileId.dcId].started)
                // the stream ran on the session that was reused, or on a new one
                && (raw != Raised(OSErr) && old(Live(client.mediaSessions, fileId.dcId)) ==>
                      client.mediaSessions[fileId.dcId] == old(client.mediaSessions[fileId.dcId]))
                && (raw != Raised(OSErr) && !old(Live(client.mediaSessions, fileId.dcId)) ==>
                      fresh(client.mediaSessions[fileId.dcId]))
    {
      var session, created := GenerateMediaSession(client, fileId, attempt);
      if session.Err? {
        failure, ys, raw, end := Some(session.error), [], Raised(session.error), Raised(session.error);
        return;
      }
      failure := None;
      ghost var cdn;
      ys, raw, end, cdn := ServeChunks(client, session.value, fileId, location, offset, p, remote);
    }

    /** `yield_file` once the connection and its counter are found: count
        the stream, get the media session, run the outer `try`, and uncount
        it on every exit, the session error included. `failure` is the
        session error, if any; the stream is then empty and ends with it. */
    method StreamOn(client: Client, loads: WorkloadTable, fileId: FileId, location: Location, offset: int,
                    p: StreamParams, remote: Remote, attempt: nat -> AuthAttempt)
      returns (failure: Option<Exc>, ys: seq<seq<byte>>, raw: End, end: End)
      requires client.Valid() && loads.Valid() && fileId.index in loads.load
      modifies loads, client, client.Entry(fileId.dcId)
      ensures client.Valid()
      // the counter is back where it was
      ensures loads.Valid() && loads.order == old(loads.order) && loads.load == old(loads.load)
      ensures failure == SessionFailure(old(Live(client.mediaSessions, fileId.dcId)), client.homeDc,
                                        fileId.dcId, attempt)
      // only the entry for the media's data center can change
      ensures client.mediaSessions - {fileId.dcId} == old(client.mediaSessions) - {fileId.dcId}
      ensures forall dc :: dc in client.mediaSessions && dc in old(client.mediaSessions) && dc != fileId.dcId ==>
                client.mediaSessions[dc].started == old(client.mediaSessions[dc].started)
      ensures failure.Some? ==> ys == [] && raw == Raised(failure.value) && end == raw
      ensures failure.None? ==>
                && Stream(ys, raw) == StreamSpec(remote, location, offset, p)
                && end == Handled(raw)
                && (raw == Raised(OSErr) <==> fileId.dcId !in client.mediaSessions)
                && (raw != Raised(OSErr) ==> client.mediaSessions[fileId.dcId].started)
                // the stream ran on the session that was reused, or on a new one
                && (raw != Raised(OSErr) && old(Live(client.mediaSessions, fileId.dcId)) ==>
                      client.mediaSessions[fileId.dcId] == old(client.mediaSessions[fileId.dcId]))
                && (raw != Raised(OSErr) && !old(Live(client.mediaSessions, fileId.dcId)) ==>
                      fresh(client.mediaSessions[fileId.dcId]))
    {
      loads.Increment(fileId.index);
      failure, ys, raw, end := SessionAndServe(client, fileId, location, offset, p, remote, attempt);
      loads.Decrement(fileId.index);
    }

    /** `yield_file`: look up the connection (`multi_clients[file_id.index]`)
        and its counter, both of which raise KeyError when missing, then
        stream on it. `clients` is `multi_clients`, `loads` is `work_loads`,
        and `remote`, `attempt` and `channelId` stand for the upstream. */
    method YieldFile(fileId: FileId, offset: int, p: StreamParams, clients: map<int, Client>,
                     loads: WorkloadTable, remote: Remote, attempt: nat -> AuthAttempt, channelId: int -> int)
      returns (ys: seq<seq<byte>>, end: End, ghost raw: End)
      requires loads.Valid() && forall c :: c in clients.Values ==> c.Valid()
      modifies loads, ClientAt(clients, fileId.index), SessionAt(clients, fileId.index, fileId.dcId)
      ensures forall c :: c in clients.Values ==> c.Valid()
      // only the entry for the media's data center, on the stream's own
      // connection, can change; every other session keeps its state
      ensures fileId.index in clients ==>
                clients[fileId.index].mediaSessions - {fileId.dcId}
                == old(clients[fileId.index].mediaSessions) - {fileId.dcId}
      ensures forall c :: c in clients.Values && c !in ClientAt(clients, fileId.index) ==>
                c.mediaSessions == old(c.mediaSessions)
      ensures forall c, dc :: c in clients.Values && dc in c.mediaSessions && dc in old(c.mediaSessions)
                              && dc != fileId.dcId ==>
                c.mediaSessions[dc].started == old(c.mediaSessions[dc].started)
      // the counter of the connection is back where it was, whatever happened
      ensures loads.Valid() && loads.order == old(loads.order) && loads.load == old(loads.load)
      // an unknown connection index raises KeyError
      ensures fileId.index !in clients || fileId.index !in old(loads.load) ==>
                ys == [] && end == Raised(KeyErr)
      // a session that cannot be had: its error propagates, nothing is yielded
      ensures fileId.index in clients && fileId.index in old(loads.load) ==>
                var failure := SessionFailure(old(Live(clients[fileId.index].mediaSessions, fileId.dcId)),
                                              clients[fileId.index].homeDc, fileId.dcId, attempt);
                failure.Some? ==> ys == [] && end == Raised(failure.value)
      // otherwise the chunks of the loop, ended as the `except` clauses say
      ensures fileId.index in clients && fileId.index in old(loads.load) ==>
                var failure := SessionFailure(old(Live(clients[fileId.index].mediaSessions, fileId.dcId)),
                                              clients[fileId.index].homeDc, fileId.dcId, attempt);
                failure.None? ==>
                  && Stream(ys, raw) == StreamSpec(remote, GetLocation(fileId, channelId), offset, p)
                  && end == Handled(raw)
                  && (raw == Raised(OSErr) <==> fileId.dcId !in clients[fileId.index].mediaSessions)
                  && (raw != Raised(OSErr) ==> clients[fileId.index].mediaSessions[fileId.dcId].started)
                  // the stream ran on the session that was reused, or on a new one
                  && (raw != Raised(OSErr) && old(Live(clients[fileId.index].mediaSessions, fileId.dcId)) ==>
                        clients[fileId.index].mediaSessions[fileId.dcId]
                        == old(clients[fileId.index].mediaSessions[fileId.dcId]))
                  && (raw != Raised(OSErr) && !old(Live(clients[fileId.index].mediaSessions, fileId.dcId)) ==>
                        fresh(clients[fileId.index].mediaSessions[fileId.dcId]))
    {
      if fileId.index !in clients || fileId.index !in loads.load {
        ys, end, raw := [], Raised(KeyErr), Raised(KeyErr);
        return;
      }
      var failure;
      var location := GetLocation(fileId, channelId);
      failure, ys, raw, end := StreamOn(clients[fileId.index], loads, fileId, location, offset, p, remote, attempt);
    }

    /** `StreamOn` as written: the increment comes before the session is made
        and outside the `try` whose `finally` undoes it, so a session error
        leaves the connection one stream busier for good. */
    method StreamOnAsWritten(client: Client, loads: WorkloadTable, fileId: FileId, location: Location,
                             offset: int, p: StreamParams, remote: Remote, attempt: nat -> AuthAttempt)
      returns (failure: Option<Exc>, ys: seq<seq<byte>>, end: End)
      requires client.Valid() && loads.Valid() && fileId.index in loads.load
      modifies loads, client, client.Entry(fileId.dcId)
      ensures client.Valid()
      ensures client.mediaSessions - {fileId.dcId} == old(client.mediaSessions) - {fileId.dcId}
      ensures loads.Valid() && loads.order == old(loads.order)
      ensures failure == SessionFailure(old(Live(client.mediaSessions, fileId.dcId)), client.homeDc,
                                        fileId.dcId, attempt)
      ensures failure.Some? ==>
                && ys == [] && end == Raised(failure.value)
                && loads.load == old(loads.load)[fileId.index := old(loads.load)[fileId.index] + 1]
      ensures failure.None? ==> loads.load == old(loads.load)
    {
      loads.Increment(fileId.index);
      var raw;
      failure, ys, raw, end := SessionAndServe(client, fileId, location, offset, p, remote, attempt);
      if failure.Some? {
        // raised before the `try`: its `finally` does not run
        return;
      }
      loads.Decrement(fileId.index);
    }

    /** `yield_file` as written, on the connection's lookups. */
    method YieldFileAsWritten(fileId: FileId, offset: int, p: StreamParams, clients: map<int, Client>,
                              loads: WorkloadTable, remote: Remote, attempt: nat -> AuthAttempt,
                              channelId: int -> int)
      returns (ys: seq<seq<byte>>, end: End)
      requires loads.Valid() && forall c :: c in clients.Values ==> c.Valid()
      modifies loads, ClientAt(clients, fileId.index), SessionAt(clients, fileId.index, fileId.dcId)
      ensures forall c :: c in clients.Values ==> c.Valid()
      ensures fileId.index in clients ==>
                clients[fileId.index].mediaSessions - {fileId.dcId}
                == old(clients[fileId.index].mediaSessions) - {fileId.dcId}
      ensures loads.Valid() && loads.order == old(loads.order)
      ensures fileId.index !in clients || fileId.index !in old(loads.load) ==>
                ys == [] && end == Raised(KeyErr) && loads.load == old(loads.load)
      ensures fileId.index in clients && fileId.index in old(loads.load) ==>
                var failure := SessionFailure(old(Live(clients[fileId.index].mediaSessions, fileId.dcId)),
                                              clients[fileId.index].homeDc, fileId.dcId, attempt);
                && (failure.Some? ==>
                      && ys == [] && end == Raised(failure.value)
                      && loads.load == old(loads.load)[fileId.index := old(loads.load)[fileId.index] + 1])
                && (failure.None? ==> loads.load == old(loads.load))
    {
      if fileId.index !in clients || fileId.index !in loads.load {
        ys, end := [], Raised(KeyErr);
        return;
      }
      var failure;
      var location := GetLocation(fileId, channelId);
      failure, ys, end := StreamOnAsWritten(clients[fileId.index], loads, fileId, location, offset, p, remote,
                                            attempt);
    }

    /** The body of the `clean_cache` loop: empty the cache. */
    method CleanCache()
      modifies this
      ensures cachedFileIds == map[]
    {
      cachedFileIds := map[];
    }
  }

  /** The leak, on a concrete input: one idle connection whose home data
      center is 1, a document on data center 2, and an upstream that refuses
      every authorization import. The stream fails with AuthBytesInvalid and
      the connection's counter goes from 0 to 1 and stays there. */
  method LeakWitness() returns (before: int, after: int)
    ensures before == 0 && after == 1
  {
    var loads := new WorkloadTable([0]);
    var client := new Client(1);
    var fileId := FileId(2, 7, 0, [], Document, Legacy, "", 0, 0, 0);
    var remote := Remote((l, o) => OtherResponse, (t, o) => CdnAnswer([], CdnFailed(OSErr)),
                         (t, o) => HashesFailed(OSErr), (c, k, iv) => c, b => b);
    var refuse: nat -> AuthAttempt := k => BytesInvalid;
    SessionFailureCases(1, 2, refuse);
    assert loads.order[0] in loads.load;
    before := loads.load[0];
    var streamer := new ByteStreamer();
    var ys, end := streamer.YieldFileAsWritten(fileId, 0, StreamParams(0, 1, 1, 1024), map[0 := client], loads,
                                               remote, refuse, x => x);
    after := loads.load[0];
  }
}

=== FILE: workloads.dfy ===
/** The shared `work_loads` table: one in-flight counter per upstream
    connection, kept in the dict's insertion order, and the least-loaded
    choice `min(work_loads, key=work_loads.get)`. */
module Workloads {
  import opened Basics

  ghost predicate Distinct(order: seq<int>)
  {
    forall i, j :: 0 <= i < j < |order| ==> order[i] != order[j]
  }

  /** Every key of the table order has a counter. */
  ghost predicate Counted(order: seq<int>, load: map<int, int>)
  {
    forall j :: 0 <= j < |order| ==> order[j] in load
  }

  /** Where Python's `min(d, key=d.get)` stops in the key order `order` (the
      dict's iteration order): it scans left to right and replaces the best
      key only on a strictly smaller value, so the first minimum wins. */
  function FirstMinimumAt(order: seq<int>, load: map<int, int>): (i: nat)
    requires order != [] && Counted(order, load)
    ensures i < |order|
    ensures forall j :: 0 <= j < |order| ==> load[order[i]] <= load[order[j]]
    ensures forall j :: 0 <= j < i ==> load[order[i]] < load[order[j]]
  {
    if |order| == 1 then 0
    else
      var b := FirstMinimumAt(order[..|order| - 1], load);
      if load[order[|order| - 1]] < load[order[b]] then |order| - 1 else b
  }

  /** `min(work_loads, key=work_loads.get)`: the least-loaded key, first in
      table order on ties; an empty table makes Python raise ValueError. */
  function LeastLoaded(order: seq<int>, load: map<int, int>): (r: Result<int>)
    requires Counted(order, load)
    ensures r.Err? <==> order == []
    ensures r.Err? ==> r.error == ValueErr
    ensures r.Ok? ==> r.value in load
    ensures r.Ok? ==> forall j :: 0 <= j < |order| ==> load[r.value] <= load[order[j]]
    // the first minimum: every key before it carries a strictly larger load
    ensures r.Ok? ==> exists i :: (0 <= i < |order| && order[i] == r.value
                                   && forall j :: 0 <= j < i ==> load[r.value] < load[order[j]])
  {
    if order == [] then Err(ValueErr)
    else
      var i := FirstMinimumAt(order, load);
      Ok(order[i])
  }

  /** Ties go to the first minimum in table order: with loads {0:3, 1:1, 2:1}
      the choice is 1, not 2. */
  lemma TieBreakPicksFirst()
    ensures LeastLoaded([0, 1, 2], map[0 := 3, 1 := 1, 2 := 1]) == Ok(1)
  {
    var load := map[0 := 3, 1 := 1, 2 := 1];
    assert [0, 1, 2][..2] == [0, 1] && [0, 1][..1] == [0];
    assert FirstMinimumAt([0, 1], load) == 1;
  }

  /** `work_loads`, updated in place by every stream. */
  class WorkloadTable {
    var order: seq<int>
    var load: map<int, int>

    ghost predicate Valid()
      reads this
    {
      && Distinct(order)
      && Counted(order, load)
      && (forall k :: k in load ==> k in order)
    }

    /** The table as the bot fills it: one idle counter per connection. */
    constructor (indices: seq<int>)
      requires Distinct(indices)
      ensures Valid() && order == indices
      ensures forall k :: k in load ==> load[k] == 0
    {
      order := indices;
      load := map k | k in indices :: 0;
      assert forall j :: 0 <= j < |indices| ==> indices[j] in indices;
    }

    /** `work_loads[i] += 1` */
    method Increment(i: int)
      requires Valid() && i in load
      modifies this
      ensures Valid() && order == old(order)
      ensures load == old(load)[i := old(load)[i] + 1]
    {
      load := load[i := load[i] + 1];
    }

    /** `work_loads[i] -= 1` */
    method Decrement(i: int)
      requires Valid() && i in load
      modifies this
      ensures Valid() && order == old(order)
      ensures load == old(load)[i := old(load)[i] - 1]
    {
      load := load[i := load[i] - 1];
    }

    /** The least-loaded connection, read without changing the table. */
    method Pick() returns (r: Result<int>)
      requires Valid()
      ensures r == LeastLoaded(order, load)
    {
      r := LeastLoaded(order, load);
    }
  }
}
